=== FILE: README.md ===
# Cosmic backgrounds of a React site, modelled in Dafny

The site renders its page background from several layers. Two canvas particle
engines (`DynamicBackground`, `ParticleSystemLayer`) redraw on animation frames
behind a 60 Hz throttle. Each keeps a pool of particles that it creates from
random draws, moves, wraps at a 50px margin, fades over their life and
respawns. `SimplifiedSpaceBackground` has the same throttle. Its stars twinkle
in place, and its celestial objects drift right and are recycled to the left
edge once they pass 100px beyond the window. `StarFieldLayer` has no throttle
and never moves a star; each frame only recomputes the twinkle. SVG and CSS
layers (`EnergyWaveLayer`, `MeshGradientLayer`, `NebulaLayer`) build wave
paths and gradients. Three of them append a hexadecimal alpha byte to a
`#RRGGBB` colour. `CohesiveScrollBackground` composes these layers. It picks a
per-section configuration from the section that is on screen and caps the
particle tier on mobile. It tracks a throttled scroll progress. It gates the
star field, wave, particle and nebula layers on visibility and reduced motion.
The three mesh layers get only the raw visibility, so they keep flowing under
reduced motion (`CohesiveScrollBackground.ReducedMotionMeshStillFlows`).
Separately, `WorkingAwakeningSection` keeps at most one of its five stage
cards expanded.

The model has one module per component. Each is a set of immutable records
and pure functions over `real`, with shared modules for the parts several
components use:

- `Radix`: `Number.prototype.toString(radix)` on integers (ECMA-262,
  section 21.1.3.6), with its inverse and the digit-count law.
- `CssColor`: the `#RRGGBB` and `#RRGGBBAA` forms of section 5.2 of CSS Color
  Module Level 4, and the alpha-suffix encoder.
- `Capability`: variants, intensity tiers, the mobile cap and count tables.
- `Scheduler`: the 16.67 ms frame gate and the 16 ms scroll gate.
- `Motion`: the margin wrap, the 20%/80% fade and the draw threshold.
- `Trail`: a bounded FIFO, as push-then-shift.
- `Draws`: `Math.random()` results as parameters in [0, 1).
- `Trig`: `Math.sin` as a parameter that is bounded and 2π-periodic.

The frame callback of each throttled engine (all but `StarFieldLayer`) is a
function from the engine state, the frame time and the draws it consumes to
the next state and the frame decision.
Halt, throttle and accept are the three outcomes. A throttled or halted frame
changes nothing. An accepted frame sets the frame baseline to the frame time
and steps every object in order, so the pool keeps its size and every object
stays within its ranges.

Three results are worth reading first:

- `CssColor.WithAlphaWellFormed` proves that a suffixed colour is well formed
  exactly when the alpha byte is between 16 and 255. The per-layer lemmas then
  place every configured opacity and every mounted mesh depth inside that
  range, whereas mesh depth 4 would yield the one-digit suffix "8".
- With a 2π-periodic sine, the three keyframe paths of every energy wave, at
  times 0, 2π and 4π, are the same path (`EnergyWaveLayer.KeyframesIdentical`).
  The path animation therefore shows a still wave, apart from rounding.
- The particle-system trail records the moved position before it is wrapped,
  so the newest trail point can lie outside the margin that the particle
  itself is wrapped into (`ParticleSystemLayer.NewestTrailPointNotWrapped`).

The code respawns a particle as soon as `life >= maxLife`, so between frames
`life < maxLife` strictly; `Live` states this invariant.

## Model

| member | source | states |
|---|---|---|
| `Radix.Digits` | components/background/EnergyWaveLayer.tsx:75 | The radix-b text of a natural number is non-empty, uses only digits of the radix and has no leading zero unless the number is 0. |
| `Radix.ToString` | components/background/NebulaLayer.tsx:39 | The text starts with '-' exactly for negative numbers, and every other character is a digit of the radix. |
| `Radix.ValueOfDigits` | components/background/MeshGradientLayer.tsx:47 | Reading the digits back gives the number. |
| `Radix.ParseToString` | components/background/MeshGradientLayer.tsx:47 | Round trip: parsing `n.toString(b)` gives `n` for every integer. |
| `Radix.ToStringInjective` | components/background/NebulaLayer.tsx:39 | Two integers have the same text if and only if they are equal. |
| `Radix.DigitCount` | components/background/MeshGradientLayer.tsx:47 | The text has one digit iff n < b, and two digits iff b <= n < b². |
| `CssColor.HexPairExactly` | components/background/EnergyWaveLayer.tsx:75 | `n.toString(16)` is exactly two hex digits iff 16 <= n <= 255. |
| `CssColor.AlphaByte` | components/background/NebulaLayer.tsx:54 | `Math.floor(opacity * 255)` is the greatest integer not above opacity·255. |
| `CssColor.AlphaByteInRange` | components/background/EnergyWaveLayer.tsx:75 | Any opacity in [16/255, 256/255) gives an alpha byte in [16, 255]. |
| `CssColor.WithOpacity` | components/background/NebulaLayer.tsx:54 | The result starts with the colour, and its suffix parses back in base 16 to the floor of opacity·255. For a `#RRGGBB` colour it is `#RRGGBBAA` iff the opacity lies in [16/255, 256/255). |
| `CssColor.WithAlphaWellFormed` | components/background/EnergyWaveLayer.tsx:75 | Appending `n.toString(16)` to a `#RRGGBB` colour gives a `#RRGGBBAA` colour iff 16 <= n <= 255. |
| `Capability.EffectiveIntensity` | components/DynamicBackground.tsx:98 | A mobile device gets the low tier, and a desktop gets the requested tier; the tier is never raised. |
| `Capability.EffectiveIntensityIdempotent` | components/background/ParticleSystemLayer.tsx:67 | Applying the mobile cap twice is the same as applying it once. |
| `Capability.AtMonotone` | components/DynamicBackground.tsx:31-49 | In a monotone count table a higher tier never gives fewer objects. |
| `Capability.TierCount` | components/DynamicBackground.tsx:97-99 | The count is the low entry on mobile and the requested tier's entry otherwise, between low and high. |
| `Scheduler.Decide` | components/DynamicBackground.tsx:132-143 | A frame halts iff the layer is not running; it is throttled iff its delta is under 16.67 ms; otherwise it is accepted with that delta. |
| `Scheduler.Accepted` | components/DynamicBackground.tsx:130-143 | A gate fed a run of event times accepts at most one event per time, moving the baseline only on an accepted event. With the 16.67 ms interval it is a running layer's frame gate, since `Decide` accepts exactly when the gate admits. |
| `Scheduler.AcceptedSpaced` | components/DynamicBackground.tsx:136-143 | Over any run, the first accepted event is at least one interval after the starting baseline, and each accepted event at least one interval after the previous one. Every accepted time is one of the event times. |
| `Scheduler.AcceptsFirstLateEvent` | components/DynamicBackground.tsx:136-143 | An event at least one interval after the baseline is never skipped; it becomes the new baseline. |
| `Draws.Scaled` | components/DynamicBackground.tsx:113-114 | `Math.random() * extent` lies in [0, extent], and below extent when extent > 0. |
| `Draws.Uniform` | components/DynamicBackground.tsx:119 | `lo + Math.random() * (hi - lo)` lies in [lo, hi), or equals lo when the range is empty. |
| `Draws.Index` | components/background/StarFieldLayer.tsx:72 | `Math.floor(Math.random() * n)` is a valid index below n. |
| `Motion.Wrap` | components/DynamicBackground.tsx:161-166 | On a non-negative extent the wrapped coordinate lies within the 50px margin; an in-range coordinate is unchanged; an out-of-range one moves to the opposite edge. |
| `Motion.WrapIdempotent` | components/background/ParticleSystemLayer.tsx:126-131 | Wrapping an already wrapped coordinate changes nothing. |
| `Motion.Fade` | components/DynamicBackground.tsx:169-176 | For a life ratio in [0,1] the alpha lies in [0, opacity]. It equals opacity on [0.2, 0.8] and is 0 at ratios 0 and 1. It is at most 0 once the ratio reaches 1. |
| `Motion.FadeIsClippedTent` | components/background/ParticleSystemLayer.tsx:134-141 | For every ratio, the fade equals opacity times the clipped tent min(1, 5r, 5(1-r)). |
| `Motion.OvershotNotDrawn` | components/DynamicBackground.tsx:184 | A particle whose life ratio reached 1 is never drawn. |
| `Trail.Push` | components/background/ParticleSystemLayer.tsx:121-124 | The newest point is last. A trail under the cap grows by one point and a full trail drops only its oldest point, so the cap is kept. |
| `Trail.PushKeepsNewest` | components/SimplifiedSpaceBackground.tsx:213-216 | One push is the last `cap` points of the trail extended by the new point. |
| `Trail.PushAllKeepsNewest` | components/SimplifiedSpaceBackground.tsx:212-216 | Any number of pushes keeps exactly the newest `cap` points of the whole history. |
| `Trail.LastNOfLastN` | components/background/ParticleSystemLayer.tsx:122-124 | Truncating early and truncating at the end keep the same newest points. |
| `Trail.Ramp` | components/SimplifiedSpaceBackground.tsx:220 | `index / length` lies in [0, 1) and is 0 for the oldest point. |
| `DynamicBackground.Config` | components/DynamicBackground.tsx:22-51 | Every variant has a non-empty hue range and a count table monotone in tier. |
| `DynamicBackground.ParticleCount` | components/DynamicBackground.tsx:97-99 | The pool has the low count on mobile, the requested tier's count otherwise, and never more than the high count. |
| `DynamicBackground.CreateParticle` | components/DynamicBackground.tsx:110-123 | A fresh particle has life 0, maxLife in [5000,10000), velocities in [-0.25,0.25), size in [1,4), opacity in [0.2,0.7), hue in the variant's range and a position on the surface. |
| `DynamicBackground.Step` | components/DynamicBackground.tsx:157-181 | A living particle stays living. It moves by its velocity once, unscaled by delta, and ages by delta, then wraps. A dead one is replaced by a fresh particle. Its alpha is `Motion.Fade` of the aged life ratio (life + delta) / maxLife, computed before the respawn. It lies within [0, opacity], and it is drawn only if the particle was alive. |
| `DynamicBackground.Initialize` | components/DynamicBackground.tsx:125-127 | The pool has exactly the tier's count of fresh, living particles, and the frame baseline is kept. |
| `DynamicBackground.Animate` | components/DynamicBackground.tsx:130-153 | The decision follows the visibility and reduced-motion gate and the frame throttle. Only an accepted frame changes the engine; it sets lastTime to now and steps each particle with its own draws. The pool size and the invariant are kept, and every particle is within the margin. |
| `ParticleSystemLayer.Config` | components/background/ParticleSystemLayer.tsx:24-40 | Every variant has a non-empty hue range and a count table monotone in tier. |
| `ParticleSystemLayer.ParticleCount` | components/background/ParticleSystemLayer.tsx:66-68 | Mobile gets the low count, and desktop gets the requested tier's count. |
| `ParticleSystemLayer.CreateParticle` | components/background/ParticleSystemLayer.tsx:79-93 | A fresh particle has life 0, an empty trail, maxLife in [8000,12000), velocities in [-0.15,0.15), size in [1,3), opacity in [0.3,0.7) and hue in range. |
| `ParticleSystemLayer.Step` | components/background/ParticleSystemLayer.tsx:114-146 | The moved, unwrapped position is pushed onto the trail, capped at 8. The particle is then wrapped and faded, and a dead one is respawned with an empty trail. The alpha is `Motion.Fade` of the aged life ratio (life + delta) / maxLife. |
| `ParticleSystemLayer.TrailAfterStep` | components/background/ParticleSystemLayer.tsx:121-124 | After a step the trail has 1 to 8 points and the newest is the moved position. It loses a point of history only when it was full. |
| `ParticleSystemLayer.NewestTrailPointNotWrapped` | components/background/ParticleSystemLayer.tsx:121-131 | For a concrete particle leaving the left edge, the wrapped x is within the margin while the newest trail x is outside it. |
| `ParticleSystemLayer.TrailAlpha` | components/background/ParticleSystemLayer.tsx:150 | Trail point alpha lies in [0, 0.3·alpha], below 0.3·alpha for a positive alpha, and 0 for the oldest point. |
| `ParticleSystemLayer.Initialize` | components/background/ParticleSystemLayer.tsx:95-97 | The pool has exactly the tier's count of living particles, each with an empty trail and life 0. |
| `ParticleSystemLayer.Animate` | components/background/ParticleSystemLayer.tsx:100-114 | A throttled or halted frame changes nothing. An accepted frame sets lastTime and steps every particle, keeping the pool size and the invariant. |
| `SimplifiedSpaceBackground.CreateStar` | components/SimplifiedSpaceBackground.tsx:72-88 | A fresh star has size in [0.5,3.5), brightness in [0.2,1), twinkle speed in [0.01,0.03), phase in [0,2π) and a position on the page. |
| `SimplifiedSpaceBackground.StarCount` | components/SimplifiedSpaceBackground.tsx:126-129 | The star count is min(150 or 300, width/4), truncated. It is never above 300, at most 150 on mobile and at most a quarter of the width. |
| `SimplifiedSpaceBackground.CelestialCount` | components/SimplifiedSpaceBackground.tsx:132 | There are 4 objects on mobile and 8 otherwise. |
| `SimplifiedSpaceBackground.KindColor` | components/SimplifiedSpaceBackground.tsx:94-98 | Each kind's colour is a `#RRGGBB` colour, and only comets are cyan. |
| `SimplifiedSpaceBackground.KindColorsDistinct` | components/SimplifiedSpaceBackground.tsx:94-98 | Two kinds have the same colour iff they are the same kind. |
| `SimplifiedSpaceBackground.CreateCelestialObject` | components/SimplifiedSpaceBackground.tsx:90-122 | An object starts at x = -50. Planets have size in [4,12) and speed in [0.1,0.3); others have size in [2,6) and speed in [0.3,1). Its colour follows its kind, and only a comet has a trail, which starts empty. |
| `SimplifiedSpaceBackground.StepObject` | components/SimplifiedSpaceBackground.tsx:194-216 | The object advances by its speed unless motion is reduced. Past width+100 it returns to x = -50 at a new height. Kind, size, speed and colour are kept. A comet's trail gets the new point, capped at 20, unless motion is reduced. |
| `SimplifiedSpaceBackground.RecycleKeepsIdentity` | components/SimplifiedSpaceBackground.tsx:199-216 | A recycled object keeps what it is and its comet trail history, minus at most the oldest point. |
| `SimplifiedSpaceBackground.CometTrailAlpha` | components/SimplifiedSpaceBackground.tsx:220 | Comet trail alpha lies in [0, 0.6) and is 0 for the oldest point. |
| `SimplifiedSpaceBackground.StepStar` | components/SimplifiedSpaceBackground.tsx:165-167 | Only the twinkle phase of a star changes. Without reduced motion it advances by exactly the star's twinkle speed; under reduced motion it is frozen. |
| `SimplifiedSpaceBackground.Twinkle` | components/SimplifiedSpaceBackground.tsx:168 | Twinkle lies in [0, 1] and is 0.5 under reduced motion. |
| `SimplifiedSpaceBackground.StarAlpha` | components/SimplifiedSpaceBackground.tsx:169 | Star alpha lies in [0.3·brightness, brightness] and is 0.65·brightness under reduced motion. |
| `SimplifiedSpaceBackground.Sparkles` | components/SimplifiedSpaceBackground.tsx:181 | Only stars larger than 2px sparkle, and none does under reduced motion. |
| `SimplifiedSpaceBackground.Initialize` | components/SimplifiedSpaceBackground.tsx:124-134 | Initialization creates exactly StarCount stars and CelestialCount objects, all within their ranges, with every object at the left edge. |
| `SimplifiedSpaceBackground.Animate` | components/SimplifiedSpaceBackground.tsx:136-216 | A throttled or halted frame changes nothing. An accepted frame sets lastTime and steps every star and object in place, keeping the counts and the invariants. |
| `StarFieldLayer.Config` | components/background/StarFieldLayer.tsx:19-35 | Every variant has fewer mobile than desktop stars, a non-empty palette and a brightness range inside [0,1]. |
| `StarFieldLayer.StarCount` | components/background/StarFieldLayer.tsx:55 | The count is the variant's mobile entry on mobile and its desktop entry otherwise, and mobile gets strictly fewer stars. |
| `StarFieldLayer.CreateStar` | components/background/StarFieldLayer.tsx:66-73 | A fresh star has size in [0.5,2.5), brightness in the variant's range, twinkle speed in [0.02,0.05) and a colour from the variant's palette. |
| `StarFieldLayer.InitStars` | components/background/StarFieldLayer.tsx:75-77 | Initialization creates exactly StarCount stars, all within their ranges. |
| `StarFieldLayer.Twinkle` | components/background/StarFieldLayer.tsx:86 | The twinkle factor lies in [0.4, 1]. It is 1 exactly at a crest of the sine and 0.4 exactly at a trough. |
| `StarFieldLayer.StarAlpha` | components/background/StarFieldLayer.tsx:87 | Star alpha lies in [0.4·brightness, brightness]. For a lit star it is the full brightness exactly at a sine crest and 40 percent of it exactly at a trough. |
| `StarFieldLayer.StarAlphaFollowsSine` | components/background/StarFieldLayer.tsx:86-87 | A lit star's alpha at one time is at most its alpha at another exactly when the sine of its phase is. |
| `StarFieldLayer.Animate` | components/background/StarFieldLayer.tsx:79-100 | A hidden layer draws nothing. A visible one draws each star at `StarAlpha` of that star at the current time, within its bounds. The stars are never changed. |
| `CohesiveScrollBackground.SectionConfigs` | components/CohesiveScrollBackground.tsx:26-87 | There are five configured sections, among them the `hero` fallback. |
| `CohesiveScrollBackground.SectionsConsistent` | components/CohesiveScrollBackground.tsx:26-87 | The observed section ids are exactly the configuration keys, each listed once. Each configuration carries its own key, hex colours and an opacity in (0,1]. |
| `CohesiveScrollBackground.ConfigFor` | components/CohesiveScrollBackground.tsx:105 | A known section gets its own configuration, and an unknown one gets hero's. |
| `CohesiveScrollBackground.Props` | components/CohesiveScrollBackground.tsx:107-112 | The star field, wave, particle and nebula layers get the section's variant. They are told they are visible iff the background is on screen and motion is not reduced (`Capability.Animates`), so reduced motion always hides them. |
| `CohesiveScrollBackground.ParticleIntensity` | components/CohesiveScrollBackground.tsx:114-117 | The particle intensity is low on mobile and the section's intensity otherwise. |
| `CohesiveScrollBackground.ParticleTierCappedOnce` | components/background/ParticleSystemLayer.tsx:67 | The particle layer's second mobile cap changes nothing: on desktop it uses the section's own tier. |
| `CohesiveScrollBackground.BackgroundGradient` | components/CohesiveScrollBackground.tsx:120-135 | Every case, including the default, gives three `#RRGGBB` stops. |
| `CohesiveScrollBackground.GradientFollowsConfig` | components/CohesiveScrollBackground.tsx:132-133 | The gradient switch falls back to hero exactly as the configuration lookup does. |
| `CohesiveScrollBackground.ObserveAll` | components/CohesiveScrollBackground.tsx:219-224 | After a sequence of observer entries, the current section is either the starting one or the id of some qualifying entry. |
| `CohesiveScrollBackground.ObserveAllNoneQualifying` | components/CohesiveScrollBackground.tsx:221 | Entries of which none qualifies leave the section unchanged. |
| `CohesiveScrollBackground.ObserveAllLastQualifying` | components/CohesiveScrollBackground.tsx:219-224 | After any entries, the current section is that of the last qualifying entry (`Observe`: intersecting with a ratio above 0.3), whatever came before it. |
| `CohesiveScrollBackground.CurrentSectionConfigured` | components/CohesiveScrollBackground.tsx:206-224 | Starting from hero, with observers only on the five sections, the current section is always configured, so the fallback is never taken. |
| `CohesiveScrollBackground.ScrollProgress` | components/CohesiveScrollBackground.tsx:263-266 | Finite progress is at most 1. It lies in [0,1] for a document taller than the window, and is 1 at or past the bottom. For a document exactly as tall as the window it is 1, NaN or -∞ by the sign of scrollY. |
| `CohesiveScrollBackground.ProgressMonotone` | components/CohesiveScrollBackground.tsx:266 | Scrolling further down never lowers the progress. |
| `CohesiveScrollBackground.DepthOpacity` | components/CohesiveScrollBackground.tsx:307 | The vignette opacity lies in [0.6, 0.8] for a progress in [0,1]. |
| `CohesiveScrollBackground.GlassOpacity` | components/CohesiveScrollBackground.tsx:347 | The reflection opacity lies in [0.6, 1] for a progress in [0,1]. |
| `CohesiveScrollBackground.OpacitiesTrade` | components/CohesiveScrollBackground.tsx:307-351 | Scrolling down darkens the vignette and fades the reflection, and their sum is 1.6 − 0.2·progress. |
| `CohesiveScrollBackground.MountedLayers` | components/CohesiveScrollBackground.tsx:316-340 | No animated layer is mounted while hidden. Seven are mounted while visible. The mesh layers have depths 0, 1 and 2 and get the raw `isVisible`. The other four get the shared props, and the particle system also gets the mobile-capped tier. |
| `CohesiveScrollBackground.ReducedMotionMeshStillFlows` | components/CohesiveScrollBackground.tsx:319-325 | On screen with reduced motion, every shared-props layer is told it is hidden. Yet every mounted mesh layer runs its `meshFlow` animation (`MeshGradientLayer.Appear`, MeshGradientLayer.tsx:58-68). |
| `CohesiveScrollBackground.ScrollRunFollowsGate` | components/CohesiveScrollBackground.tsx:258-268 | Over any run of scroll events (`HandleAll` of `HandleScroll`), the listener is the 16 ms gate over the event times. If the gate accepts nothing, the state is unchanged. Otherwise the state holds the last accepted event's time and the progress measured at that event. With `Scheduler.AcceptedSpaced`, accepted events are therefore at least 16 ms apart. |
| `CohesiveScrollBackground.MountedMeshStopsWellFormed` | components/CohesiveScrollBackground.tsx:319-325 | Every colour stop of every mounted mesh layer is a well-formed `#RRGGBBAA` colour. |
| `EnergyWaveLayer.Waves` | components/background/EnergyWaveLayer.tsx:10-30 | Every variant has at least one wave, and every amplitude is non-negative. |
| `EnergyWaveLayer.Steps` | components/background/EnergyWaveLayer.tsx:54 | There are 30 sampling intervals on mobile and 50 otherwise. |
| `EnergyWaveLayer.Samples` | components/background/EnergyWaveLayer.tsx:56-60 | A path samples exactly steps+1 points, in order. |
| `EnergyWaveLayer.SamplesSpanWidth` | components/background/EnergyWaveLayer.tsx:57 | The first sample is at x = 0 and the last at x = width, and x strictly increases when width > 0. |
| `EnergyWaveLayer.SamplesWithinAmplitude` | components/background/EnergyWaveLayer.tsx:58 | Every sample's y lies within one amplitude of height/2. |
| `EnergyWaveLayer.WavePath` | components/background/EnergyWaveLayer.tsx:62 | The path moves to (0,height), draws a line through each sample in order, draws a line to (width,height), then closes: steps+4 commands. |
| `EnergyWaveLayer.PathPeriodic` | components/background/EnergyWaveLayer.tsx:58 | Shifting time by 2π leaves the path unchanged. |
| `EnergyWaveLayer.Keyframes` | components/background/EnergyWaveLayer.tsx:80-84 | There are three keyframe paths. Each starts at the bottom-left corner, runs to the bottom-right corner and closes, with one line per sample. |
| `EnergyWaveLayer.KeyframesIdentical` | components/background/EnergyWaveLayer.tsx:80-84 | The keyframes at 0, 2π and 4π are one and the same path. |
| `EnergyWaveLayer.Fill` | components/background/EnergyWaveLayer.tsx:75 | The fill is the wave's colour followed by a suffix that parses back in base 16 to `Math.floor(opacity * 255)`. For a `#RRGGBB` colour, the fill is `#RRGGBBAA` iff the opacity lies in [16/255, 256/255). |
| `EnergyWaveLayer.Duration` | components/background/EnergyWaveLayer.tsx:93 | Every wave's path cycle lasts at least 20 s. |
| `EnergyWaveLayer.Delay` | components/background/EnergyWaveLayer.tsx:90-91 | Delays are non-negative, and only the first wave starts at once. |
| `EnergyWaveLayer.Staggered` | components/background/EnergyWaveLayer.tsx:90-93 | A later wave has a later delay and a longer cycle. |
| `EnergyWaveLayer.ConfiguredFillsWellFormed` | components/background/EnergyWaveLayer.tsx:13-27 | Every configured wave's fill is a well-formed `#RRGGBBAA` colour. |
| `EnergyWaveLayer.AnimateTarget` | components/background/EnergyWaveLayer.tsx:77-88 | A hidden wave targets pathLength 0 and opacity 0; a visible one targets 1 and 1, with three keyframes. |
| `MeshGradientLayer.MeshPoints` | components/background/MeshGradientLayer.tsx:13-37 | Every variant has at least one mesh point. |
| `MeshGradientLayer.MeshPointsFromPalette` | components/background/MeshGradientLayer.tsx:12-36 | Every mesh point is inside the window and coloured from its variant's palette with a `#RRGGBB` colour. |
| `MeshGradientLayer.MeshGradient` | components/background/MeshGradientLayer.tsx:44-49 | There is one radial gradient per mesh point, at its position, with a (800+200L)×(600+150L) ellipse and the point's colour suffixed with `(40-8L).toString(16)`. |
| `MeshGradientLayer.StopsWellFormed` | components/background/MeshGradientLayer.tsx:47 | Every stop of depth L is a well-formed `#RRGGBBAA` colour iff -26 <= L <= 3. |
| `MeshGradientLayer.FifthLayerAlphaOneDigit` | components/background/MeshGradientLayer.tsx:47 | Depth 3 encodes its alpha as "10" and depth 4 as the single digit "8". |
| `MeshGradientLayer.LayerAlpha` | components/background/MeshGradientLayer.tsx:47 | The alpha is a two-digit byte iff -26 <= layer <= 3, and at most 40 for a non-negative layer. |
| `MeshGradientLayer.ZIndex` | components/background/MeshGradientLayer.tsx:66 | A layer sits behind the page content (zIndex at most -1) iff its depth is non-negative. |
| `MeshGradientLayer.Delay` | components/background/MeshGradientLayer.tsx:51 | The delay is non-negative for a non-negative depth, and zero only at depth 0. |
| `MeshGradientLayer.Duration` | components/background/MeshGradientLayer.tsx:52 | A flow cycle lasts at least 25 s for a non-negative depth. |
| `MeshGradientLayer.DeeperLayersRecede` | components/background/MeshGradientLayer.tsx:47-66 | A deeper layer has a lower zIndex, a fainter alpha, larger ellipses, a later start and a longer cycle. |
| `NebulaLayer.Nebulae` | components/background/NebulaLayer.tsx:10-30 | Every variant has at least one nebula. |
| `NebulaLayer.Elements` | components/background/NebulaLayer.tsx:35-41 | There is one element per configured nebula, keeping its fields, with size ×0.7 on mobile and id `nebula-i`. |
| `NebulaLayer.MobileShrinks` | components/background/NebulaLayer.tsx:38 | A mobile cloud is smaller than the desktop one but at least 70% of it. |
| `NebulaLayer.IdsDistinct` | components/background/NebulaLayer.tsx:39 | No two elements share an id. |
| `NebulaLayer.CoreStop` | components/background/NebulaLayer.tsx:54 | The core stop is the cloud's colour followed by a suffix that parses back in base 16 to `Math.floor(opacity * 255)`. For a `#RRGGBB` colour, it is `#RRGGBBAA` iff the opacity lies in [16/255, 256/255). |
| `NebulaLayer.CoreStopsWellFormed` | components/background/NebulaLayer.tsx:13-27 | Every configured nebula's core stop is a well-formed `#RRGGBBAA` colour. |
| `NebulaLayer.AnimateTarget` | components/background/NebulaLayer.tsx:64-73 | A hidden cloud's target names only opacity and scale, at their initial values 0 and 0.8. A visible one cycles through 4 opacity and scale keyframes and 3 rotation and offset keyframes. |
| `NebulaLayer.CycleShape` | components/background/NebulaLayer.tsx:59-73 | The cycle starts from the initial opacity, scale and rotation, and from zero drift, and turns 360°. Its opacities stay in [0,1], and it drifts at most 20px sideways and 15px vertically before returning. |
| `NebulaLayer.Duration` | components/background/NebulaLayer.tsx:75 | Every cloud's cycle lasts at least 30 s. |
| `NebulaLayer.Delay` | components/background/NebulaLayer.tsx:78 | Delays are non-negative, and only the first cloud starts at once. |
| `NebulaLayer.Staggered` | components/background/NebulaLayer.tsx:75-78 | A later cloud has a longer duration and a later delay. |
| `WorkingAwakeningSection.StagesWellFormed` | components/WorkingAwakeningSection.tsx:7-81 | The five stage ids are distinct, and every accent with the `80` suffix is a `#RRGGBBAA` colour. |
| `WorkingAwakeningSection.AtMostOneExpanded` | components/WorkingAwakeningSection.tsx:146-238 | In every state at most one card is expanded, so at most one card's body is rendered (`ExpandedContent`). |
| `WorkingAwakeningSection.ClickShowsOnlyClicked` | components/WorkingAwakeningSection.tsx:91-93 | Clicking a card (`Toggle`) renders its body iff it was closed, and leaves every other card's body hidden, whatever was open before. |
| `WorkingAwakeningSection.ToggleTwice` | components/WorkingAwakeningSection.tsx:92 | Clicking the same card twice restores the state iff no card or that card was open; otherwise every card ends closed. |
| `WorkingAwakeningSection.ClicksStayOnCards` | components/WorkingAwakeningSection.tsx:181 | Any clicks on cards leave the state closed or on a card. |
| `WorkingAwakeningSection.RepeatedClicks` | components/WorkingAwakeningSection.tsx:92 | From all closed, n clicks on one card leave it open iff n is odd, and otherwise everything is closed. |

## Left out

- Canvas and SVG drawing (arcs, fills, shadows, the asteroid polygon and its per-frame `Math.random()` jitter, the star sparkle dot, planet glow) is rendering with no state. Only the alphas and the draw threshold are modelled.
- The React effect lifecycle is not modelled: `requestAnimationFrame` handles, cancellation, the intersection-observer restart in `DynamicBackground`, the try/catch restart, stale closures and the `isClient` server-render fallback. The frame baseline set when a loop starts is an input to the engine.
- Browser inputs become parameters: intersection entries, `matchMedia`, resize events, `getBoundingClientRect` sizes, `innerWidth`, document heights and `performance.now()`. `devicePixelRatio` scaling of the canvas is left out.
- `Math.random()` and `Math.sin` are parameters. Draws are required to lie in [0, 1). The sine is assumed only bounded and periodic with period twice the double-precision `Math.PI`, which a floating-point sine satisfies only up to rounding. `Math.cos` in the nebula drift is assumed only bounded.
- IEEE 754 rounding and number-to-string formatting are left out; arithmetic is exact over `real`. The one exception is scroll progress, where division by zero is modelled as infinity or NaN.
- The wave path, mesh gradient and nebula gradient are modelled as lists of commands or gradient records, not as the joined text. The nebula's second stop (`color` + "20", a fixed alpha) is not modelled. The mesh `colors` palette, which the source never reads, appears only in `MeshGradientLayer.MeshPointsFromPalette`.
- The glassmorphism gradients in `CohesiveScrollBackground` are constant text per section and are left out.
- `CohesiveScrollBackground.ConfigFor`: the source's `sectionConfigs[id] || hero` would return an inherited property such as `constructor` for a prototype key. The model treats every non-key as unknown; `CurrentSectionConfigured` shows only configured ids ever reach the lookup.
- The section configs' `backgroundOpacity` and `particleCount` fields are never read by the source. The model keeps them as data only.
- `NebulaLayer.AnimateTarget`: the hidden target names only opacity and scale. What `motion/react` then does with the rotation and drift that the target no longer names is library behaviour, and it is not modelled.
- Transition timing and easing curves of `motion/react` (durations other than the mesh, nebula and wave cycles and delays, `easeInOut`, `repeat`) are left out.
- The development-only overlay, and the markup and copy of the section and hero components, are left out.
- `StarFieldLayer.Animate`: the layer's effect does not start at all under reduced motion. That gate is lifecycle and is not modelled.

=== FILE: capability.dfy ===
/** The capability gate shared by every layer: the three visual variants, the
    three intensity tiers, the rule that a mobile device always gets the
    lowest tier, and per-tier count tables. */
module Capability {

  datatype Variant = Cosmic | Philosophical | Transcendent

  datatype Intensity = Low | Medium | High {
    /** Position in the order low < medium < high. */
    function Rank(): nat {
      match this
      case Low => 0
      case Medium => 1
      case High => 2
    }
  }

  /** `isMobile ? 'low' : intensity`. */
  function EffectiveIntensity(isMobile: bool, requested: Intensity): (t: Intensity)
    ensures isMobile ==> t == Low
    ensures !isMobile ==> t == requested
    ensures t.Rank() <= requested.Rank()
  {
    if isMobile then Low else requested
  }

  /** Applying the mobile cap twice is applying it once, so a layer that caps
      an intensity its parent already capped sees the same tier. */
  lemma EffectiveIntensityIdempotent(isMobile: bool, requested: Intensity)
    ensures EffectiveIntensity(isMobile, EffectiveIntensity(isMobile, requested))
         == EffectiveIntensity(isMobile, requested)
  {
  }

  /** The run gate of `DynamicBackground` and the `isVisible` of the shared
      layer props: on screen and motion allowed. The mesh layers and
      `SimplifiedSpaceBackground` do not use it. */
  function Animates(isVisible: bool, isReducedMotion: bool): (on: bool)
    ensures on ==> !isReducedMotion
    ensures on ==> isVisible
    ensures isVisible && !isReducedMotion ==> on
  {
    isVisible && !isReducedMotion
  }

  /** A `{ low, medium, high }` count table. */
  datatype CountTable = CountTable(low: nat, medium: nat, high: nat) {

    function At(t: Intensity): nat {
      match t
      case Low => low
      case Medium => medium
      case High => high
    }

    predicate Monotone() {
      low <= medium <= high
    }
  }

  /** In a monotone table a higher tier never means fewer objects. */
  lemma AtMonotone(table: CountTable, a: Intensity, b: Intensity)
    requires table.Monotone()
    requires a.Rank() <= b.Rank()
    ensures table.At(a) <= table.At(b)
  {
  }

  /** `config.count[isMobile ? 'low' : intensity]`. */
  function TierCount(table: CountTable, isMobile: bool, requested: Intensity): (n: nat)
    requires table.Monotone()
    ensures isMobile ==> n == table.low
    ensures !isMobile ==> n == table.At(requested)
    ensures table.low <= n <= table.At(requested) <= table.high
  {
    AtMonotone(table, Low, requested);
    AtMonotone(table, requested, High);
    table.At(EffectiveIntensity(isMobile, requested))
  }
}

=== FILE: cohesive_scroll_background.dfy ===
/** The page-level background: it follows which page section is on screen,
    picks that section's configuration (variant, intensity, colours), hands
    the shared layer props to every layer, and tracks a throttled scroll
    progress that deepens the vignette and fades the reflection layer. The
    intersection observers, the scroll listener and the media queries are
    modelled as the events they deliver. */
module CohesiveScrollBackground {

  import opened Capability
  import opened Scheduler
  import CssColor
  import MeshGradientLayer

  datatype Palette = Palette(primary: string, secondary: string, accent: string)

  datatype SectionConfig = SectionConfig(
    id: string,
    variant: Variant,
    intensity: Intensity,
    colors: Palette,
    backgroundOpacity: real,
    particleCount: nat)

  /** The section every unknown id falls back to, and the initial one. */
  const Hero: string := "hero"

  /** The `sectionConfigs` record: five sections, the fallback among them. */
  function SectionConfigs(): (m: map<string, SectionConfig>)
    ensures m.Keys == {"hero", "awakening", "blog", "visual", "footer"}
    ensures Hero in m
  {
    map[
      "hero" := SectionConfig("hero", Cosmic, High,
        Palette("#3b82f6", "#a855f7", "#22d3ee"), 1.0, 40),
      "awakening" := SectionConfig("awakening", Philosophical, Medium,
        Palette("#818cf8", "#a855f7", "#c084fc"), 0.8, 25),
      "blog" := SectionConfig("blog", Transcendent, Medium,
        Palette("#22d3ee", "#0ea5e9", "#06b6d4"), 0.9, 30),
      "visual" := SectionConfig("visual", Cosmic, Low,
        Palette("#8b5cf6", "#3b82f6", "#22d3ee"), 0.7, 20),
      "footer" := SectionConfig("footer", Philosophical, Low,
        Palette("#64748b", "#475569", "#94a3b8"), 0.5, 15)]
  }

  /** The sections an intersection observer is attached to, in page order. */
  function SectionIds(): seq<string> {
    ["hero", "awakening", "blog", "visual", "footer"]
  }

  predicate IsSection(id: string) {
    id in SectionConfigs()
  }

  /** The configuration stored under `id` carries `id` as its own id,
      well-formed colours and an opacity in (0, 1]. */
  predicate ConfigWellFormed(id: string, c: SectionConfig) {
    && c.id == id
    && CssColor.IsHexColor(c.colors.primary, 6)
    && CssColor.IsHexColor(c.colors.secondary, 6)
    && CssColor.IsHexColor(c.colors.accent, 6)
    && 0.0 < c.backgroundOpacity <= 1.0
  }

  /** Every configuration is well formed under its key. */
  lemma ConfigsWellFormed()
    ensures forall id :: IsSection(id) ==> ConfigWellFormed(id, SectionConfigs()[id])
  {
    var m := SectionConfigs();
    assert ConfigWellFormed("hero", m["hero"]);
    assert ConfigWellFormed("awakening", m["awakening"]);
    assert ConfigWellFormed("blog", m["blog"]);
    assert ConfigWellFormed("visual", m["visual"]);
    assert ConfigWellFormed("footer", m["footer"]);
  }

  /** The observed sections are exactly the configured ones, each listed
      once, and every configuration is well formed under its key. */
  lemma SectionsConsistent()
    ensures forall id :: id in SectionIds() <==> IsSection(id)
    ensures forall i, j :: 0 <= i < j < |SectionIds()| ==> SectionIds()[i] != SectionIds()[j]
    ensures forall id :: IsSection(id) ==> ConfigWellFormed(id, SectionConfigs()[id])
  {
    ConfigsWellFormed();
    var ids := SectionIds();
    assert forall id :: id in ids <==> id in {"hero", "awakening", "blog", "visual", "footer"};
  }

  /** `sectionConfigs[currentSection] || sectionConfigs.hero`. */
  function ConfigFor(section: string): (c: SectionConfig)
    ensures IsSection(section) ==> c.id == section
    ensures !IsSection(section) ==> c.id == Hero
  {
    SectionsConsistent();
    if IsSection(section) then SectionConfigs()[section] else SectionConfigs()[Hero]
  }

  /** The props every layer but the particle system receives. */
  datatype LayerProps = LayerProps(variant: Variant, isVisible: bool, isMobile: bool, isReducedMotion: bool)

  /** `layerProps`: a layer is told it is visible only when the background
      is on screen and motion is not reduced. */
  function Props(section: string, isVisible: bool, isMobile: bool, isReducedMotion: bool)
    : (p: LayerProps)
    ensures p.variant == ConfigFor(section).variant
    ensures p.isVisible <==> isVisible && !isReducedMotion
    ensures p.isReducedMotion ==> !p.isVisible
    ensures p.isMobile == isMobile && p.isReducedMotion == isReducedMotion
  {
    LayerProps(ConfigFor(section).variant, Animates(isVisible, isReducedMotion), isMobile, isReducedMotion)
  }

  /** `particleProps`: the layer props and an intensity capped on mobile. */
  function ParticleIntensity(section: string, isMobile: bool): (t: Intensity)
    ensures isMobile ==> t == Low
    ensures !isMobile ==> t == ConfigFor(section).intensity
  {
    EffectiveIntensity(isMobile, ConfigFor(section).intensity)
  }

  /** The particle layer caps the intensity it is handed again; since the
      cap is idempotent, the tier it uses is the section's tier capped once,
      and on a desktop the section's own tier. */
  lemma ParticleTierCappedOnce(section: string, isMobile: bool)
    ensures EffectiveIntensity(isMobile, ParticleIntensity(section, isMobile))
         == EffectiveIntensity(isMobile, ConfigFor(section).intensity)
    ensures !isMobile ==> (EffectiveIntensity(isMobile, ParticleIntensity(section, isMobile))
                           == ConfigFor(section).intensity)
  {
    EffectiveIntensityIdempotent(isMobile, ConfigFor(section).intensity);
  }

  /** A `linear-gradient(180deg, …)` with stops at 0%, 50% and 100%. */
  datatype Gradient = Gradient(top: string, middle: string, bottom: string)

  /** `getBackgroundGradient`. */
  function BackgroundGradient(section: string): (g: Gradient)
    ensures CssColor.IsHexColor(g.top, 6) && CssColor.IsHexColor(g.middle, 6)
         && CssColor.IsHexColor(g.bottom, 6)
  {
    match section
    case "hero" => Gradient("#0a0a0a", "#1a1a2e", "#16213e")
    case "awakening" => Gradient("#0a0a0f", "#1a1530", "#1a1845")
    case "blog" => Gradient("#0a0a12", "#152838", "#1a2332")
    case "visual" => Gradient("#0a0a0f", "#1a1a2e", "#16213e")
    case "footer" => Gradient("#0a0a0a", "#151515", "#1a1a1a")
    case _ => Gradient("#0a0a0a", "#1a1a2e", "#16213e")
  }

  /** The gradient switch and the configuration lookup fall back in the
      same way: an unknown section gets the hero gradient, so the gradient
      always belongs to the section whose configuration is in use. */
  lemma GradientFollowsConfig(section: string)
    ensures BackgroundGradient(section) == BackgroundGradient(ConfigFor(section).id)
    ensures !IsSection(section) ==> BackgroundGradient(section) == BackgroundGradient(Hero)
  {
    SectionsConsistent();
    if !IsSection(section) {
      assert section !in SectionIds();
    }
  }

  /** One intersection entry delivered to a section's observer. */
  datatype Entry = Entry(id: string, isIntersecting: bool, intersectionRatio: real)

  /** The entry makes its section current. */
  predicate Qualifies(e: Entry) {
    e.isIntersecting && e.intersectionRatio > 0.3
  }

  /** A section observer's callback. */
  function Observe(current: string, e: Entry): (next: string)
    ensures Qualifies(e) ==> next == e.id
    ensures !Qualifies(e) ==> next == current
  {
    if e.isIntersecting && e.intersectionRatio > 0.3 then e.id else current
  }

  /** The current section after a sequence of entries, in delivery order. */
  function ObserveAll(current: string, es: seq<Entry>): (next: string)
    ensures next == current || exists i :: 0 <= i < |es| && Qualifies(es[i]) && next == es[i].id
    decreases |es|
  {
    if |es| == 0 then current
    else
      var pre := es[..|es| - 1];
      var before := ObserveAll(current, pre);
      assert forall i :: 0 <= i < |pre| ==> pre[i] == es[i];
      Observe(before, es[|es| - 1])
  }

  /** No qualifying entry leaves the current section where it was. */
  lemma {:induction false} ObserveAllNoneQualifying(current: string, es: seq<Entry>)
    requires forall i :: 0 <= i < |es| ==> !Qualifies(es[i])
    ensures ObserveAll(current, es) == current
    decreases |es|
  {
    if |es| > 0 {
      var pre := es[..|es| - 1];
      assert forall i :: 0 <= i < |pre| ==> pre[i] == es[i];
      ObserveAllNoneQualifying(current, pre);
    }
  }

  /** The current section is the section of the last qualifying entry. */
  lemma {:induction false} ObserveAllLastQualifying(current: string, es: seq<Entry>, k: nat)
    requires k < |es| && Qualifies(es[k])
    requires forall j :: k < j < |es| ==> !Qualifies(es[j])
    ensures ObserveAll(current, es) == es[k].id
    decreases |es|
  {
    if k < |es| - 1 {
      var pre := es[..|es| - 1];
      assert forall j :: k < j < |pre| ==> pre[j] == es[j];
      ObserveAllLastQualifying(current, pre, k);
    }
  }

  /** Observers are only attached to configured sections, so starting from
      the hero section the current section is always a configured one and
      the hero fallback of the lookup is never taken. */
  lemma {:induction false} CurrentSectionConfigured(es: seq<Entry>)
    requires forall i :: 0 <= i < |es| ==> es[i].id in SectionIds()
    ensures IsSection(ObserveAll(Hero, es))
    ensures ConfigFor(ObserveAll(Hero, es)).id == ObserveAll(Hero, es)
    decreases |es|
  {
    SectionsConsistent();
    if |es| > 0 {
      var pre := es[..|es| - 1];
      assert forall i :: 0 <= i < |pre| ==> pre[i] == es[i];
      CurrentSectionConfigured(pre);
    }
  }

  /** `Math.min(scrollY / (documentHeight - windowHeight), 1)` under IEEE
      754 division: a finite value, or negative infinity or NaN when the
      document is no taller than the window. Positive infinity is clipped to
      1 by the minimum. */
  datatype Progress = Finite(value: real) | NegativeInfinity | NotANumber

  function ScrollProgress(scrollY: real, windowHeight: real, documentHeight: real): (p: Progress)
    ensures p.Finite? ==> p.value <= 1.0
    ensures documentHeight != windowHeight ==> p.Finite?
    ensures documentHeight == windowHeight ==>
      (scrollY > 0.0 <==> p == Finite(1.0)) && (scrollY == 0.0 <==> p.NotANumber?)
      && (scrollY < 0.0 <==> p.NegativeInfinity?)
    ensures 0.0 <= scrollY && windowHeight < documentHeight ==> p.Finite? && 0.0 <= p.value
    ensures windowHeight < documentHeight <= windowHeight + scrollY ==> p == Finite(1.0)
  {
    var span := documentHeight - windowHeight;
    if span == 0.0 then
      if scrollY > 0.0 then Finite(1.0)
      else if scrollY == 0.0 then NotANumber
      else NegativeInfinity
    else
      var q := scrollY / span;
      RatioBounds(scrollY, span);
      Finite(if q < 1.0 then q else 1.0)
  }

  lemma RatioBounds(y: real, span: real)
    requires span != 0.0
    ensures 0.0 < span && 0.0 <= y ==> 0.0 <= y / span
    ensures 0.0 < span <= y ==> 1.0 <= y / span
  {
    if 0.0 < span <= y {
      assert y / span * span == y;
    }
  }

  /** Scrolling further down never lowers the progress of a document taller
      than the window. */
  lemma ProgressMonotone(y1: real, y2: real, windowHeight: real, documentHeight: real)
    requires y1 <= y2 && windowHeight < documentHeight
    ensures ScrollProgress(y1, windowHeight, documentHeight).value
         <= ScrollProgress(y2, windowHeight, documentHeight).value
  {
    var span := documentHeight - windowHeight;
    assert y1 / span <= y2 / span by {
      assert (y2 - y1) / span >= 0.0;
    }
  }

  /** The scroll listener's state. */
  datatype ScrollState = ScrollState(lastScrollTime: real, progress: Progress)

  /** The initial state: no scroll seen, progress 0. */
  function InitialScroll(): ScrollState {
    ScrollState(0.0, Finite(0.0))
  }

  /** `handleScroll`: ignored within 16 ms of the last accepted event,
      otherwise records the time and the new progress. */
  function HandleScroll(s: ScrollState, now: real, scrollY: real, windowHeight: real,
                        documentHeight: real): (r: ScrollState)
    ensures now - s.lastScrollTime < ScrollInterval ==> r == s
    ensures Admits(s.lastScrollTime, now, ScrollInterval) ==>
      r == ScrollState(now, ScrollProgress(scrollY, windowHeight, documentHeight))
  {
    if now - s.lastScrollTime < ScrollInterval then s
    else ScrollState(now, ScrollProgress(scrollY, windowHeight, documentHeight))
  }

  /** One scroll event: its time and the measurements `handleScroll` reads. */
  datatype ScrollEvent = ScrollEvent(time: real, scrollY: real, windowHeight: real, documentHeight: real)

  /** The listener's state after a run of scroll events, in order. */
  function HandleAll(s: ScrollState, es: seq<ScrollEvent>): ScrollState
    decreases |es|
  {
    if |es| == 0 then s
    else
      var e := es[0];
      HandleAll(HandleScroll(s, e.time, e.scrollY, e.windowHeight, e.documentHeight), es[1..])
  }

  function Times(es: seq<ScrollEvent>): (ts: seq<real>)
    ensures |ts| == |es| && forall i :: 0 <= i < |es| ==> ts[i] == es[i].time
  {
    seq(|es|, i requires 0 <= i < |es| => es[i].time)
  }

  /** The state `handleScroll` leaves after accepting `e`. */
  predicate Records(r: ScrollState, e: ScrollEvent) {
    r == ScrollState(e.time, ScrollProgress(e.scrollY, e.windowHeight, e.documentHeight))
  }

  /** The scroll listener is the 16 ms gate over the event times: a run in
      which the gate accepts nothing leaves the state unchanged, and
      otherwise the state holds the last accepted event's time and the
      progress measured at that event. With `Scheduler.AcceptedSpaced`,
      accepted scroll events are therefore at least 16 ms apart. */
  lemma {:induction false} ScrollRunFollowsGate(s: ScrollState, es: seq<ScrollEvent>)
    ensures var acc := Accepted(s.lastScrollTime, Times(es), ScrollInterval);
      var r := HandleAll(s, es);
      && (|acc| == 0 ==> r == s)
      && (0 < |acc| ==> (exists i :: 0 <= i < |es| && es[i].time == acc[|acc| - 1] && Records(r, es[i])))
    decreases |es|
  {
    if |es| > 0 {
      var e := es[0];
      var rest := es[1..];
      var s1 := HandleScroll(s, e.time, e.scrollY, e.windowHeight, e.documentHeight);
      assert Times(es)[1..] == Times(rest);
      ScrollRunFollowsGate(s1, rest);
      var acc := Accepted(s.lastScrollTime, Times(es), ScrollInterval);
      var acc1 := Accepted(s1.lastScrollTime, Times(rest), ScrollInterval);
      var r := HandleAll(s, es);
      assert r == HandleAll(s1, rest);
      if Admits(s.lastScrollTime, e.time, ScrollInterval) {
        assert acc == [e.time] + acc1;
        if |acc1| == 0 {
          assert es[0].time == acc[|acc| - 1];
        } else {
          var i :| 0 <= i < |rest| && rest[i].time == acc1[|acc1| - 1] && Records(r, rest[i]);
          assert es[i + 1] == rest[i];
        }
      } else {
        assert s1 == s && acc == acc1;
        if 0 < |acc1| {
          var i :| 0 <= i < |rest| && rest[i].time == acc1[|acc1| - 1] && Records(r, rest[i]);
          assert es[i + 1] == rest[i];
        }
      }
    }
  }

  /** The vignette's opacity, `0.6 + progress * 0.2`, and the reflection
      layer's, `1 - progress * 0.4`, for a finite progress. */
  function DepthOpacity(p: real): (o: real)
    ensures 0.0 <= p <= 1.0 ==> 0.6 <= o <= 0.8
  {
    0.6 + p * 0.2
  }

  function GlassOpacity(p: real): (o: real)
    ensures 0.0 <= p <= 1.0 ==> 0.6 <= o <= 1.0
  {
    1.0 - p * 0.4
  }

  /** As the page scrolls down the vignette darkens and the reflection
      fades, and at every point the two together stay at 1.6 minus a fifth
      of the progress. */
  lemma OpacitiesTrade(p: real, q: real)
    requires p <= q
    ensures DepthOpacity(p) <= DepthOpacity(q) && GlassOpacity(q) <= GlassOpacity(p)
    ensures DepthOpacity(p) + GlassOpacity(p) == 1.6 - 0.2 * p
  {
  }

  /** The layers mounted inside the root, back to front, each with the
      visibility flag it is handed: the three mesh layers get their depth
      and the raw `isVisible`, the others the shared props (the particle
      system also its capped tier). */
  datatype Layer =
    | Mesh(depth: nat, meshVisible: bool)
    | StarField(props: LayerProps)
    | EnergyWave(props: LayerProps)
    | ParticleSystem(props: LayerProps, intensity: Intensity)
    | NebulaClouds(props: LayerProps)

  /** Nothing but the root, the vignette and the reflection is mounted while
      the background is off screen; otherwise three mesh layers at depths
      0 to 2 and the four shared-props layers. */
  function MountedLayers(section: string, isVisible: bool, isMobile: bool, isReducedMotion: bool)
    : (ls: seq<Layer>)
    ensures !isVisible ==> ls == []
    ensures isVisible ==> |ls| == 7
    ensures forall i :: 0 <= i < |ls| && ls[i].Mesh? ==>
      ls[i].depth == i && ls[i].depth <= 2 && ls[i].meshVisible == isVisible
    ensures forall i :: 0 <= i < |ls| && !ls[i].Mesh? ==>
      ls[i].props == Props(section, isVisible, isMobile, isReducedMotion)
    ensures forall i :: 0 <= i < |ls| && ls[i].ParticleSystem? ==>
      ls[i].intensity == ParticleIntensity(section, isMobile)
  {
    var p := Props(section, isVisible, isMobile, isReducedMotion);
    if isVisible then
      [Mesh(0, isVisible), Mesh(1, isVisible), Mesh(2, isVisible), StarField(p), EnergyWave(p),
       ParticleSystem(p, ParticleIntensity(section, isMobile)), NebulaClouds(p)]
    else []
  }

  /** The mesh layers are the only ones not gated on reduced motion: while
      the background is on screen with reduced motion requested, every
      other layer is told it is hidden, yet every mounted mesh layer is
      shown with its `meshFlow` animation running. */
  lemma ReducedMotionMeshStillFlows(section: string, isMobile: bool)
    ensures var ls := MountedLayers(section, true, isMobile, true);
      && 0 < |ls|
      && (forall i :: 0 <= i < |ls| && !ls[i].Mesh? ==> !ls[i].props.isVisible)
      && (forall i :: 0 <= i < |ls| && ls[i].Mesh? ==>
            MeshGradientLayer.Appear(ls[i].depth, ls[i].meshVisible).animation.MeshFlow?)
  {
  }

  /** Every mesh layer the background mounts has a well-formed alpha byte in
      every colour stop, whatever the section's variant. */
  lemma MountedMeshStopsWellFormed(section: string, isVisible: bool, isMobile: bool, isReducedMotion: bool)
    ensures var ls := MountedLayers(section, isVisible, isMobile, isReducedMotion);
      forall i :: 0 <= i < |ls| && ls[i].Mesh? ==>
        var gs := MeshGradientLayer.MeshGradient(ConfigFor(section).variant, ls[i].depth);
        forall k :: 0 <= k < |gs| ==> CssColor.IsHexColor(gs[k].stop, 8)
  {
    var ls := MountedLayers(section, isVisible, isMobile, isReducedMotion);
    var v := ConfigFor(section).variant;
    forall i | 0 <= i < |ls| && ls[i].Mesh?
      ensures var gs := MeshGradientLayer.MeshGradient(v, ls[i].depth);
        forall k :: 0 <= k < |gs| ==> CssColor.IsHexColor(gs[k].stop, 8)
    {
      MeshGradientLayer.StopsWellFormed(v, ls[i].depth);
    }
  }
}

=== FILE: css_color.dfy ===
/** Colours in hexadecimal notation (section 5.2 of CSS Color Module Level 4):
    `#RRGGBB`, and `#RRGGBBAA` with an alpha byte. Several layers build the
    eight-digit form by appending `n.toString(16)` to a six-digit colour,
    which is well formed only when `n` has exactly two hex digits. */
module CssColor {

  import Radix

  predicate IsHexDigit(c: char) {
    '0' <= c <= '9' || 'a' <= c <= 'f' || 'A' <= c <= 'F'
  }

  /** `#` followed by exactly `digits` hexadecimal digits. */
  predicate IsHexColor(s: string, digits: nat) {
    |s| == digits + 1 && s[0] == '#' && forall i :: 1 <= i < |s| ==> IsHexDigit(s[i])
  }

  /** `n.toString(16)`. */
  function Hex(n: int): string {
    Radix.ToString(n, 16)
  }

  /** Exactly two hexadecimal digits. */
  predicate IsHexPair(s: string) {
    |s| == 2 && IsHexDigit(s[0]) && IsHexDigit(s[1])
  }

  /** `n.toString(16)` is a two-digit alpha byte exactly for 16 <= n <= 255:
      below 16 it has one digit, above 255 three or more, and a negative
      number starts with '-'. */
  lemma HexPairExactly(n: int)
    ensures IsHexPair(Hex(n)) <==> 16 <= n <= 255
  {
    var s := Hex(n);
    if n >= 0 {
      Radix.DigitCount(n, 16);
      assert forall i :: 0 <= i < |s| ==> Radix.IsDigitOf(s[i], 16);
      if 16 <= n <= 255 {
        assert IsHexDigit(s[0]) && IsHexDigit(s[1]);
      }
    } else {
      assert s[0] == '-';
    }
  }

  /** `Math.floor(opacity * 255)`. */
  function AlphaByte(opacity: real): (n: int)
    ensures n as real <= opacity * 255.0 < n as real + 1.0
  {
    (opacity * 255.0).Floor
  }

  /** The alpha byte of any opacity in [16/255, 256/255) has two hex digits. */
  lemma AlphaByteInRange(opacity: real)
    requires 16.0 / 255.0 <= opacity < 256.0 / 255.0
    ensures 16 <= AlphaByte(opacity) <= 255
  {
  }

  /** `${color}${n.toString(16)}`. */
  function WithAlpha(color: string, n: int): string {
    color + Hex(n)
  }

  /** Appending `n.toString(16)` to a `#RRGGBB` colour yields a `#RRGGBBAA`
      colour exactly when 16 <= n <= 255. */
  lemma WithAlphaWellFormed(color: string, n: int)
    requires IsHexColor(color, 6)
    ensures IsHexColor(WithAlpha(color, n), 8) <==> 16 <= n <= 255
  {
    var s := WithAlpha(color, n);
    var h := Hex(n);
    HexPairExactly(n);
    assert s[7..] == h;
    if IsHexColor(s, 8) {
      assert h[0] == s[7] && h[1] == s[8];
    }
    if 16 <= n <= 255 {
      forall i | 1 <= i < |s|
        ensures IsHexDigit(s[i])
      {
        if i >= 7 {
          assert s[i] == h[i - 7];
        } else {
          assert s[i] == color[i];
        }
      }
    }
  }

  /** `${color}${Math.floor(opacity * 255).toString(16)}`: the colour
      followed by a suffix that reads back, in base 16, as the floor of
      opacity·255. A `#RRGGBB` colour with this suffix is a `#RRGGBBAA`
      colour exactly when the opacity lies in [16/255, 256/255). */
  function WithOpacity(color: string, opacity: real): (s: string)
    ensures |color| <= |s| && s[..|color|] == color
    ensures var n := Radix.Parse(s[|color|..], 16);
      n as real <= opacity * 255.0 < n as real + 1.0
    ensures IsHexColor(color, 6) ==> (IsHexColor(s, 8) <==> 16.0 / 255.0 <= opacity < 256.0 / 255.0)
  {
    var n := AlphaByte(opacity);
    var s := WithAlpha(color, n);
    assert s[|color|..] == Hex(n);
    Radix.ParseToString(n, 16);
    if IsHexColor(color, 6) then
      WithAlphaWellFormed(color, n);
      s
    else
      s
  }
}

=== FILE: draws.dfy ===
/** `Math.random()` is not modelled: every random draw is a parameter, and the
    only thing assumed of it is what the host promises, a value in [0, 1).
    A factory takes its draws as a sequence in the order the source makes its
    `Math.random()` calls. */
module Draws {

  predicate IsDraw(r: real) {
    0.0 <= r < 1.0
  }

  /** Exactly `n` draws, each in [0, 1). */
  predicate AreDraws(rs: seq<real>, n: nat) {
    |rs| == n && forall i :: 0 <= i < |rs| ==> IsDraw(rs[i])
  }

  /** One batch of `n` draws for each of `count` objects. */
  predicate AreDrawBatches(batches: seq<seq<real>>, count: nat, n: nat) {
    |batches| == count && forall i :: 0 <= i < |batches| ==> AreDraws(batches[i], n)
  }

  /** `r * span` stays in [0, span), the scaling every factory applies. */
  lemma ScaledDraw(r: real, span: real)
    requires IsDraw(r) && 0.0 <= span
    ensures 0.0 <= r * span <= span
    ensures 0.0 < span ==> r * span < span
  {
  }

  /** `Math.random() * extent`: a value in [0, extent), or 0 on an empty extent. */
  function Scaled(r: real, extent: real): (x: real)
    requires IsDraw(r) && 0.0 <= extent
    ensures 0.0 <= x <= extent
    ensures 0.0 < extent ==> x < extent
  {
    ScaledDraw(r, extent);
    r * extent
  }

  /** `lo + Math.random() * (hi - lo)`: a value in [lo, hi). */
  function Uniform(r: real, lo: real, hi: real): (x: real)
    requires IsDraw(r) && lo <= hi
    ensures lo <= x <= hi
    ensures lo < hi ==> x < hi
  {
    var span := hi - lo;
    ScaledDraw(r, span);
    lo + r * span
  }

  /** `Math.floor(Math.random() * n)`: an index into an array of length `n`. */
  function Index(r: real, n: nat): (i: nat)
    requires IsDraw(r) && 0 < n
    ensures i < n
    ensures i as real <= r * n as real < i as real + 1.0
  {
    ScaledDraw(r, n as real);
    (r * n as real).Floor
  }
}

=== FILE: dynamic_background.dfy ===
/** The generic canvas background: a fixed-size pool of glowing particles that
    drift by their velocity once per accepted frame, wrap around the surface
    with a 50px margin, fade in and out over their life, and are respawned in
    place when their life runs out. */
module DynamicBackground {

  import opened Capability
  import opened Draws
  import opened Motion
  import opened Scheduler

  /** A variant's hue range and its particle count per intensity tier. */
  datatype VariantConfig = VariantConfig(hueLow: real, hueHigh: real, particleCount: CountTable)

  /** The `variants` table. */
  function Config(v: Variant): (c: VariantConfig)
    ensures c.hueLow < c.hueHigh
    ensures c.particleCount.Monotone()
  {
    match v
    case Cosmic => VariantConfig(220.0, 280.0, CountTable(6, 20, 30))
    case Philosophical => VariantConfig(260.0, 300.0, CountTable(4, 15, 20))
    case Transcendent => VariantConfig(180.0, 260.0, CountTable(4, 15, 20))
  }

  /** The number of particles in the pool: the low-tier count on a mobile
      device, the requested tier's count otherwise. */
  function ParticleCount(v: Variant, isMobile: bool, intensity: Intensity): (n: nat)
    ensures isMobile ==> n == Config(v).particleCount.low
    ensures !isMobile ==> n == Config(v).particleCount.At(intensity)
    ensures n <= Config(v).particleCount.high
  {
    TierCount(Config(v).particleCount, isMobile, intensity)
  }

  datatype Particle = Particle(
    x: real, y: real,
    vx: real, vy: real,
    size: real, opacity: real, hue: real,
    life: real, maxLife: real)

  /** The ranges `createParticle` samples every attribute but position from. */
  predicate InRanges(v: Variant, p: Particle) {
    && 5000.0 <= p.maxLife < 10000.0
    && -0.25 <= p.vx < 0.25 && -0.25 <= p.vy < 0.25
    && 1.0 <= p.size < 4.0
    && 0.2 <= p.opacity < 0.7
    && Config(v).hueLow <= p.hue < Config(v).hueHigh
  }

  /** What holds of every particle in the pool between frames. */
  predicate Live(v: Variant, p: Particle) {
    InRanges(v, p) && 0.0 <= p.life < p.maxLife
  }

  /** `createParticle` makes eight `Math.random()` calls. */
  const DrawsPerParticle: nat := 8

  /** A fresh particle: `rs` are the eight draws in call order (max life,
      x, y, vx, vy, size, opacity, hue). */
  function CreateParticle(v: Variant, s: Surface, rs: seq<real>): (p: Particle)
    requires s.Valid() && AreDraws(rs, DrawsPerParticle)
    ensures Live(v, p) && p.life == 0.0
    ensures 0.0 <= p.x <= s.width && 0.0 <= p.y <= s.height
  {
    var c := Config(v);
    var r0, r1, r2, r3, r4, r5, r6, r7 := rs[0], rs[1], rs[2], rs[3], rs[4], rs[5], rs[6], rs[7];
    assert IsDraw(r0) && IsDraw(r1) && IsDraw(r2) && IsDraw(r3);
    assert IsDraw(r4) && IsDraw(r5) && IsDraw(r6) && IsDraw(r7);
    var maxLife := 5000.0 + r0 * 5000.0;
    Particle(
      x := Scaled(r1, s.width),
      y := Scaled(r2, s.height),
      vx := (r3 - 0.5) * 0.5,
      vy := (r4 - 0.5) * 0.5,
      size := r5 * 3.0 + 1.0,
      opacity := r6 * 0.5 + 0.2,
      hue := Uniform(r7, c.hueLow, c.hueHigh),
      life := 0.0,
      maxLife := maxLife)
  }

  /** A particle after one accepted frame, and the alpha it is drawn with. */
  datatype Stepped = Stepped(next: Particle, alpha: real)

  /** One particle's update in an accepted frame of `delta` milliseconds:
      move by the velocity (once per frame, not scaled by `delta`), age by
      `delta`, wrap, compute the fade from the aged particle, then respawn in
      place with the draws `rs` if its life has run out. The alpha is the one
      computed before the respawn. */
  function Step(v: Variant, p: Particle, delta: real, s: Surface, rs: seq<real>): (r: Stepped)
    requires Live(v, p) && 0.0 <= delta
    requires s.Valid() && AreDraws(rs, DrawsPerParticle)
    ensures Live(v, r.next)
    ensures -Margin <= r.next.x <= s.width + Margin
    ensures -Margin <= r.next.y <= s.height + Margin
    ensures p.life + delta < p.maxLife ==>
      r.next == p.(x := Wrap(p.x + p.vx, s.width), y := Wrap(p.y + p.vy, s.height), life := p.life + delta)
    ensures p.life + delta >= p.maxLife ==> r.next == CreateParticle(v, s, rs)
    ensures r.alpha == Fade((p.life + delta) / p.maxLife, p.opacity)
    ensures p.life + delta < p.maxLife ==> 0.0 <= r.alpha <= p.opacity
    ensures Drawn(r.alpha) ==> p.life + delta < p.maxLife
  {
    var moved := p.(x := p.x + p.vx, y := p.y + p.vy, life := p.life + delta);
    var wrapped := moved.(x := Wrap(moved.x, s.width), y := Wrap(moved.y, s.height));
    var lifeRatio := wrapped.life / wrapped.maxLife;
    LifeRatioBounds(wrapped.life, wrapped.maxLife);
    var alpha := Fade(lifeRatio, wrapped.opacity);
    if wrapped.life >= wrapped.maxLife then
      OvershotNotDrawn(lifeRatio, wrapped.opacity);
      Stepped(CreateParticle(v, s, rs), alpha)
    else
      Stepped(wrapped, alpha)
  }

  /** The pool and the time of the last accepted frame. */
  datatype Engine = Engine(lastTime: real, particles: seq<Particle>)

  predicate Valid(v: Variant, e: Engine) {
    forall i :: 0 <= i < |e.particles| ==> Live(v, e.particles[i])
  }

  /** `initParticles`: a pool of exactly `ParticleCount` fresh particles.
      It does not touch the frame baseline `lastTime`. */
  function Initialize(v: Variant, isMobile: bool, intensity: Intensity, s: Surface, lastTime: real,
                      draws: seq<seq<real>>): (e: Engine)
    requires s.Valid()
    requires AreDrawBatches(draws, ParticleCount(v, isMobile, intensity), DrawsPerParticle)
    ensures |e.particles| == ParticleCount(v, isMobile, intensity)
    ensures Valid(v, e) && e.lastTime == lastTime
    ensures forall i :: 0 <= i < |e.particles| ==> e.particles[i].life == 0.0
  {
    Engine(lastTime, seq(|draws|, i requires 0 <= i < |draws| => CreateParticle(v, s, draws[i])))
  }

  /** What one frame callback leaves behind: the next engine, the frame
      decision and the alpha each particle was drawn with. */
  datatype Frame = Frame(next: Engine, decision: Decision, alphas: seq<real>)

  /** One animation-frame callback at time `now`. It halts (no further frame
      is requested) when the layer is off screen or motion is reduced; it
      only requests another frame when less than one frame interval has
      passed; otherwise it steps every particle in order with its own batch
      of respawn draws and records `now` as the last frame time. */
  function Animate(v: Variant, e: Engine, now: real, isVisible: bool, isReducedMotion: bool,
                   s: Surface, draws: seq<seq<real>>): (f: Frame)
    requires Valid(v, e) && s.Valid()
    requires AreDrawBatches(draws, |e.particles|, DrawsPerParticle)
    ensures f.decision == Decide(Animates(isVisible, isReducedMotion), e.lastTime, now)
    ensures !f.decision.Accept? ==> f.next == e && f.alphas == []
    ensures f.decision.Accept? ==> f.next.lastTime == now && |f.alphas| == |e.particles|
    ensures |f.next.particles| == |e.particles|
    ensures Valid(v, f.next)
    ensures f.decision.Accept? ==> forall i :: 0 <= i < |e.particles| ==>
      Stepped(f.next.particles[i], f.alphas[i]) == Step(v, e.particles[i], f.decision.delta, s, draws[i])
    ensures f.decision.Accept? ==> forall i :: 0 <= i < |f.next.particles| ==>
      -Margin <= f.next.particles[i].x <= s.width + Margin &&
      -Margin <= f.next.particles[i].y <= s.height + Margin
  {
    var d := Decide(Animates(isVisible, isReducedMotion), e.lastTime, now);
    if !d.Accept? then Frame(e, d, [])
    else
      var n := |e.particles|;
      var steps := seq(n, i requires 0 <= i < n => Step(v, e.particles[i], d.delta, s, draws[i]));
      Frame(Engine(now, seq(n, i requires 0 <= i < n => steps[i].next)), d,
            seq(n, i requires 0 <= i < n => steps[i].alpha))
  }
}

=== FILE: energy_wave_layer.dfy ===
/** The energy-wave layer: per variant, a few translucent sine waves, each an
    SVG path that samples the wave at evenly spaced x positions across the
    window, closed along the bottom edge, and animated through three
    keyframe paths at times 0, 2π and 4π. The path is modelled as its list of
    commands rather than as text. */
module EnergyWaveLayer {

  import opened Capability
  import opened CssColor
  import Trig
  import Radix

  datatype Wave = Wave(amplitude: real, frequency: real, phase: real, color: string, opacity: real)

  /** The `waveConfigs` table. */
  function Waves(v: Variant): (ws: seq<Wave>)
    ensures 0 < |ws|
    ensures forall i :: 0 <= i < |ws| ==> 0.0 <= ws[i].amplitude
  {
    match v
    case Cosmic => [
      Wave(50.0, 0.02, 0.0, "#3b82f6", 0.1),
      Wave(30.0, 0.03, Trig.Pi, "#a855f7", 0.08),
      Wave(40.0, 0.025, Trig.Pi / 2.0, "#22d3ee", 0.12)]
    case Philosophical => [
      Wave(45.0, 0.025, 0.0, "#818cf8", 0.1),
      Wave(35.0, 0.035, Trig.Pi, "#a855f7", 0.09)]
    case Transcendent => [
      Wave(55.0, 0.02, 0.0, "#22d3ee", 0.11),
      Wave(25.0, 0.04, Trig.Pi / 3.0, "#0ea5e9", 0.08)]
  }

  /** Number of intervals a path is sampled with. */
  function Steps(isMobile: bool): (n: nat)
    ensures 0 < n
    ensures isMobile ==> n == 30
    ensures !isMobile ==> n == 50
  {
    if isMobile then 30 else 50
  }

  datatype Point = Point(x: real, y: real)

  datatype PathCommand = MoveTo(to: Point) | LineTo(to: Point) | ClosePath

  /** `(i / steps) * width`. */
  function SampleX(i: nat, steps: nat, width: real): real
    requires 0 < steps
  {
    (i as real / steps as real) * width
  }

  /** On a window of positive width, later samples lie strictly further right. */
  lemma SampleXIncreasing(i: nat, j: nat, steps: nat, width: real)
    requires i < j && 0 < steps && 0.0 < width
    ensures SampleX(i, steps, width) < SampleX(j, steps, width)
  {
    var a := i as real / steps as real;
    var b := j as real / steps as real;
    assert a < b by {
      assert a * steps as real == i as real;
      assert b * steps as real == j as real;
    }
    assert (b - a) * width > 0.0;
  }

  /** Sample `i`: x is `(i / steps) * width`, y is
      `height / 2 + Math.sin(x * frequency + time + phase) * amplitude`. */
  function Sample(w: Wave, width: real, height: real, time: real, steps: nat, sin: real -> real, i: nat)
    : Point
    requires 0 < steps
  {
    var x := SampleX(i, steps, width);
    Point(x, height / 2.0 + sin(x * w.frequency + time + w.phase) * w.amplitude)
  }

  /** The `steps + 1` samples of one wave at `time`, left to right. */
  function Samples(w: Wave, width: real, height: real, time: real, steps: nat, sin: real -> real)
    : (ps: seq<Point>)
    requires 0 < steps
    ensures |ps| == steps + 1
    ensures forall i :: 0 <= i <= steps ==> ps[i] == Sample(w, width, height, time, steps, sin, i)
  {
    seq(steps + 1, i requires 0 <= i <= steps => Sample(w, width, height, time, steps, sin, i))
  }

  /** The samples span the window: the first at x = 0, the last at the full
      width, and strictly increasing in between when the width is positive. */
  lemma SamplesSpanWidth(w: Wave, width: real, height: real, time: real, steps: nat, sin: real -> real)
    requires 0 < steps
    ensures var ps := Samples(w, width, height, time, steps, sin);
      && ps[0].x == 0.0 && ps[steps].x == width
      && (0.0 < width ==> forall i, j :: 0 <= i < j <= steps ==> ps[i].x < ps[j].x)
  {
    var ps := Samples(w, width, height, time, steps, sin);
    assert steps as real / steps as real == 1.0;
    assert ps[steps].x == (steps as real / steps as real) * width;
    forall i, j | 0 <= i < j <= steps && 0.0 < width
      ensures ps[i].x < ps[j].x
    {
      SampleXIncreasing(i, j, steps, width);
    }
  }

  /** With a sine bounded by 1, every sample lies within one amplitude of
      the vertical centre of the window. */
  lemma SamplesWithinAmplitude(w: Wave, width: real, height: real, time: real, steps: nat,
                               sin: real -> real)
    requires 0 < steps && Trig.Bounded(sin) && 0.0 <= w.amplitude
    ensures var ps := Samples(w, width, height, time, steps, sin);
      forall i :: 0 <= i <= steps ==>
        height / 2.0 - w.amplitude <= ps[i].y <= height / 2.0 + w.amplitude
  {
    var ps := Samples(w, width, height, time, steps, sin);
    forall i | 0 <= i <= steps
      ensures height / 2.0 - w.amplitude <= ps[i].y <= height / 2.0 + w.amplitude
    {
      var x := SampleX(i, steps, width);
      Trig.ScaledSine(sin(x * w.frequency + time + w.phase), w.amplitude);
    }
  }

  /** `createWavePath`: move to the bottom-left corner, a line through every
      sample in order, a line to the bottom-right corner, close. */
  function WavePath(w: Wave, width: real, height: real, time: real, isMobile: bool, sin: real -> real)
    : (path: seq<PathCommand>)
    ensures var steps := Steps(isMobile);
      var ps := Samples(w, width, height, time, steps, sin);
      && |path| == steps + 4
      && path[0] == MoveTo(Point(0.0, height))
      && (forall i :: 0 <= i <= steps ==> path[i + 1] == LineTo(ps[i]))
      && path[steps + 2] == LineTo(Point(width, height))
      && path[steps + 3] == ClosePath
  {
    var ps := Samples(w, width, height, time, Steps(isMobile), sin);
    [MoveTo(Point(0.0, height))]
      + seq(|ps|, i requires 0 <= i < |ps| => LineTo(ps[i]))
      + [LineTo(Point(width, height)), ClosePath]
  }

  /** The three keyframe paths, at times 0, `Math.PI * 2` and `Math.PI * 4`. */
  function Keyframes(w: Wave, width: real, height: real, isMobile: bool, sin: real -> real)
    : (ks: seq<seq<PathCommand>>)
    ensures |ks| == 3
    ensures forall k :: 0 <= k < 3 ==>
      && |ks[k]| == Steps(isMobile) + 4
      && ks[k][0] == MoveTo(Point(0.0, height))
      && ks[k][Steps(isMobile) + 2] == LineTo(Point(width, height))
      && ks[k][Steps(isMobile) + 3] == ClosePath
  {
    [WavePath(w, width, height, 0.0, isMobile, sin),
     WavePath(w, width, height, Trig.TwoPi, isMobile, sin),
     WavePath(w, width, height, 2.0 * Trig.TwoPi, isMobile, sin)]
  }

  /** Shifting time by one period leaves every sample, and so the path,
      unchanged. */
  lemma {:induction false} PathPeriodic(w: Wave, width: real, height: real, time: real, isMobile: bool,
                                        sin: real -> real)
    requires Trig.Periodic(sin)
    ensures WavePath(w, width, height, time + Trig.TwoPi, isMobile, sin)
         == WavePath(w, width, height, time, isMobile, sin)
  {
    var steps := Steps(isMobile);
    var a := Samples(w, width, height, time + Trig.TwoPi, steps, sin);
    var b := Samples(w, width, height, time, steps, sin);
    forall i | 0 <= i <= steps
      ensures a[i] == b[i]
    {
      var x := SampleX(i, steps, width);
      var t := x * w.frequency + time + w.phase;
      assert x * w.frequency + (time + Trig.TwoPi) + w.phase == t + Trig.TwoPi;
      assert sin(t + Trig.TwoPi) == sin(t);
    }
    assert a == b;
    assert WavePath(w, width, height, time + Trig.TwoPi, isMobile, sin)
        == WavePath(w, width, height, time, isMobile, sin);
  }

  /** With a 2π-periodic sine the three keyframes are the same path, so the
      keyframe animation shows a still wave. */
  lemma KeyframesIdentical(w: Wave, width: real, height: real, isMobile: bool, sin: real -> real)
    requires Trig.Periodic(sin)
    ensures var ks := Keyframes(w, width, height, isMobile, sin);
      ks[0] == ks[1] && ks[1] == ks[2]
  {
    PathPeriodic(w, width, height, 0.0, isMobile, sin);
    PathPeriodic(w, width, height, Trig.TwoPi, isMobile, sin);
    assert 0.0 + Trig.TwoPi == Trig.TwoPi;
    assert Trig.TwoPi + Trig.TwoPi == 2.0 * Trig.TwoPi;
  }

  /** The fill colour: `${color}${Math.floor(opacity * 255).toString(16)}`. */
  function Fill(w: Wave): (f: string)
    ensures |w.color| <= |f| && f[..|w.color|] == w.color
    ensures Radix.Parse(f[|w.color|..], 16) == AlphaByte(w.opacity)
    ensures IsHexColor(w.color, 6) ==> (IsHexColor(f, 8) <==> 16.0 / 255.0 <= w.opacity < 256.0 / 255.0)
  {
    WithOpacity(w.color, w.opacity)
  }

  /** Every configured wave colour is `#RRGGBB` and every configured opacity
      has a two-digit alpha byte, so every fill is a well-formed nine
      character `#RRGGBBAA` colour. */
  lemma ConfiguredFillsWellFormed(v: Variant)
    ensures forall i :: 0 <= i < |Waves(v)| ==> IsHexColor(Fill(Waves(v)[i]), 8)
  {
    var ws := Waves(v);
    forall i | 0 <= i < |ws|
      ensures IsHexColor(Fill(ws[i]), 8)
    {
      var w := ws[i];
      assert IsHexColor(w.color, 6) && 16.0 / 255.0 <= w.opacity < 256.0 / 255.0;
    }
  }

  /** The animation target of one wave path. */
  datatype Target = Target(pathLength: real, opacity: real, d: seq<seq<PathCommand>>)

  /** Drawn in and cycling through its keyframes while visible; collapsed to
      an invisible, undrawn path otherwise. */
  function AnimateTarget(w: Wave, isVisible: bool, width: real, height: real, isMobile: bool,
                         sin: real -> real): (t: Target)
    ensures !isVisible ==> t.pathLength == 0.0 && t.opacity == 0.0 && t.d == []
    ensures isVisible ==> t.pathLength == 1.0 && t.opacity == 1.0 && |t.d| == 3
  {
    if isVisible then Target(1.0, 1.0, Keyframes(w, width, height, isMobile, sin))
    else Target(0.0, 0.0, [])
  }

  /** `duration: 20 + index * 3` of the `d` cycle, in seconds. */
  function Duration(index: nat): (d: real)
    ensures 20.0 <= d
  {
    20.0 + index as real * 3.0
  }

  /** `delay: index * 0.5` of the draw-in and fade-in, in seconds. */
  function Delay(index: nat): (d: real)
    ensures 0.0 <= d
    ensures d == 0.0 <==> index == 0
  {
    index as real * 0.5
  }

  /** Later waves draw in later and cycle more slowly. */
  lemma Staggered(i: nat, j: nat)
    requires i < j
    ensures Delay(i) < Delay(j) && Duration(i) < Duration(j)
  {
  }
}

=== FILE: mesh_gradient_layer.dfy ===
/** The mesh-gradient layer: per variant a handful of coloured points, each a
    radial gradient whose ellipse grows and whose alpha shrinks with the depth
    index `layer`. Deeper layers sit further back, start later and flow
    slower. The CSS background is modelled as its list of radial gradients
    rather than as the joined text. */
module MeshGradientLayer {

  import opened Capability
  import opened CssColor
  import Radix

  datatype MeshPoint = MeshPoint(x: int, y: int, color: string)

  /** The variant's `colors` palette. */
  function Palette(v: Variant): seq<string> {
    match v
    case Cosmic => ["#3b82f6", "#a855f7", "#22d3ee", "#8b5cf6", "#0ea5e9"]
    case Philosophical => ["#818cf8", "#a855f7", "#c084fc", "#7c3aed"]
    case Transcendent => ["#22d3ee", "#0ea5e9", "#06b6d4", "#0891b2"]
  }

  /** The variant's `meshPoints`, positions in percent of the window. */
  function MeshPoints(v: Variant): (ps: seq<MeshPoint>)
    ensures 0 < |ps|
  {
    match v
    case Cosmic => [
      MeshPoint(20, 30, "#3b82f6"), MeshPoint(80, 20, "#a855f7"), MeshPoint(40, 70, "#22d3ee"),
      MeshPoint(70, 80, "#8b5cf6"), MeshPoint(10, 60, "#0ea5e9")]
    case Philosophical => [
      MeshPoint(30, 40, "#818cf8"), MeshPoint(70, 30, "#a855f7"), MeshPoint(50, 70, "#c084fc"),
      MeshPoint(20, 80, "#7c3aed")]
    case Transcendent => [
      MeshPoint(40, 20, "#22d3ee"), MeshPoint(60, 80, "#0ea5e9"), MeshPoint(80, 40, "#06b6d4"),
      MeshPoint(20, 70, "#0891b2")]
  }

  /** Every mesh point lies inside the window, is coloured from the
      variant's palette, and its colour is a `#RRGGBB` colour. */
  lemma MeshPointsFromPalette(v: Variant)
    ensures forall i :: 0 <= i < |MeshPoints(v)| ==>
      && MeshPoints(v)[i].color in Palette(v)
      && IsHexColor(MeshPoints(v)[i].color, 6)
      && 0 <= MeshPoints(v)[i].x <= 100 && 0 <= MeshPoints(v)[i].y <= 100
  {
  }

  /** One `radial-gradient(ellipse W px H px at X% Y%, STOP 0%, transparent 50%)`. */
  datatype Radial = Radial(width: int, height: int, x: int, y: int, stop: string)

  /** `Math.floor(40 - layer * 8)`; the layer index is an integer, so the
      floor is the value itself. */
  function LayerAlpha(layer: int): (a: int)
    ensures 16 <= a <= 255 <==> -26 <= layer <= 3
    ensures 0 <= layer ==> a <= 40
  {
    40 - layer * 8
  }

  /** The gradient list for one depth index. */
  function MeshGradient(v: Variant, layer: int): (gs: seq<Radial>)
    ensures |gs| == |MeshPoints(v)|
    ensures forall i :: 0 <= i < |gs| ==>
      && gs[i].x == MeshPoints(v)[i].x && gs[i].y == MeshPoints(v)[i].y
      && gs[i].width == 800 + layer * 200 && gs[i].height == 600 + layer * 150
      && gs[i].stop == WithAlpha(MeshPoints(v)[i].color, LayerAlpha(layer))
  {
    var ps := MeshPoints(v);
    seq(|ps|, i requires 0 <= i < |ps| =>
      Radial(800 + layer * 200, 600 + layer * 150, ps[i].x, ps[i].y,
             WithAlpha(ps[i].color, LayerAlpha(layer))))
  }

  /** Every colour stop of a layer is a well-formed `#RRGGBBAA` colour
      exactly when -26 <= layer <= 3: from layer 4 on the alpha has one hex
      digit (layer 4 gives "8") and from layer 5 on it is negative. The
      background renders layers 0, 1 and 2, all inside the range. */
  lemma StopsWellFormed(v: Variant, layer: int)
    ensures forall i :: 0 <= i < |MeshGradient(v, layer)| ==>
      (IsHexColor(MeshGradient(v, layer)[i].stop, 8) <==> -26 <= layer <= 3)
  {
    MeshPointsFromPalette(v);
    var gs := MeshGradient(v, layer);
    forall i | 0 <= i < |gs|
      ensures IsHexColor(gs[i].stop, 8) <==> -26 <= layer <= 3
    {
      WithAlphaWellFormed(MeshPoints(v)[i].color, LayerAlpha(layer));
    }
  }

  /** The fifth depth index is the first whose alpha loses a digit. */
  lemma FifthLayerAlphaOneDigit()
    ensures Hex(LayerAlpha(4)) == "8"
    ensures Hex(LayerAlpha(3)) == "10"
  {
  }

  /** `zIndex: -1 - layer`. */
  function ZIndex(layer: int): (z: int)
    ensures 0 <= layer <==> z <= -1
  {
    -1 - layer
  }

  /** `animationDelay` in seconds. */
  function Delay(layer: int): (d: real)
    ensures 0 <= layer ==> 0.0 <= d
    ensures d == 0.0 <==> layer == 0
  {
    layer as real * 0.5
  }

  /** `animationDuration` in seconds. */
  function Duration(layer: int): (d: real)
    ensures 0 <= layer ==> 25.0 <= d
  {
    25.0 + layer as real * 5.0
  }

  /** A deeper layer is drawn behind a shallower one, has larger ellipses, a
      fainter alpha, starts later and flows more slowly. */
  lemma DeeperLayersRecede(v: Variant, a: int, b: int)
    requires a < b
    ensures ZIndex(b) < ZIndex(a)
    ensures LayerAlpha(b) < LayerAlpha(a)
    ensures Delay(a) < Delay(b) && Duration(a) < Duration(b)
    ensures forall i :: 0 <= i < |MeshPoints(v)| ==>
      MeshGradient(v, a)[i].width < MeshGradient(v, b)[i].width &&
      MeshGradient(v, a)[i].height < MeshGradient(v, b)[i].height
  {
  }

  /** The CSS `animation` property. */
  datatype Animation = NoAnimation | MeshFlow(duration: real, delay: real)

  /** The layer's opacity target and animation. */
  datatype Appearance = Appearance(opacity: real, animation: Animation)

  /** Shown and flowing while visible; faded out with no animation
      otherwise. */
  function Appear(layer: int, isVisible: bool): (a: Appearance)
    ensures isVisible <==> a.opacity == 1.0
    ensures !isVisible <==> a.opacity == 0.0
    ensures !isVisible <==> a.animation.NoAnimation?
    ensures isVisible ==> a.animation == MeshFlow(Duration(layer), Delay(layer))
  {
    if isVisible then Appearance(1.0, MeshFlow(Duration(layer), Delay(layer)))
    else Appearance(0.0, NoAnimation)
  }
}

=== FILE: motion.dfy ===
/** Per-particle motion rules shared by the generic background and the
    particle-system layer: wrap-around with a fixed margin, the 20%/80% life
    fade, and the threshold below which a particle is not drawn. */
module Motion {

  /** How far past an edge a particle may drift before it re-enters from the
      opposite edge, in CSS pixels. */
  const Margin: real := 50.0

  /** Particles whose alpha is at most this are skipped when drawing. */
  const DrawThreshold: real := 0.01

  /** The drawing surface's size in CSS pixels, as read from its layout box. */
  datatype Surface = Surface(width: real, height: real) {
    predicate Valid() {
      0.0 <= width && 0.0 <= height
    }
  }

  /** One coordinate after wrapping across an extent of `extent` pixels. */
  function Wrap(v: real, extent: real): (r: real)
    ensures 0.0 <= extent ==> -Margin <= r <= extent + Margin
    ensures -Margin <= v <= extent + Margin ==> r == v
    ensures r != v ==> (v < -Margin && r == extent + Margin) || (v > extent + Margin && r == -Margin)
  {
    if v < -Margin then extent + Margin
    else if v > extent + Margin then -Margin
    else v
  }

  /** Wrapping a wrapped coordinate again changes nothing. */
  lemma WrapIdempotent(v: real, extent: real)
    requires 0.0 <= extent
    ensures Wrap(Wrap(v, extent), extent) == Wrap(v, extent)
  {
  }

  /** The alpha of a particle at `lifeRatio` of its life: a linear fade-in
      over the first 20%, full `opacity` in between, a linear fade-out over
      the last 20%. Outside [0, 1] the two ramps simply continue. */
  function Fade(lifeRatio: real, opacity: real): (alpha: real)
    ensures 0.0 <= lifeRatio <= 1.0 && 0.0 <= opacity ==> 0.0 <= alpha <= opacity
    ensures 0.2 <= lifeRatio <= 0.8 ==> alpha == opacity
    ensures lifeRatio == 0.0 || lifeRatio == 1.0 ==> alpha == 0.0
    ensures 1.0 <= lifeRatio && 0.0 <= opacity ==> alpha <= 0.0
  {
    var factor :=
      if lifeRatio > 0.8 then 1.0 - (lifeRatio - 0.8) * 5.0
      else if lifeRatio < 0.2 then lifeRatio * 5.0
      else 1.0;
    ScaleBounds(opacity, factor);
    opacity * factor
  }

  /** Scaling a non-negative opacity by a factor in [0, 1] stays in
      [0, opacity]; by a non-positive factor, at or below 0. */
  lemma ScaleBounds(opacity: real, factor: real)
    ensures 0.0 <= opacity && 0.0 <= factor <= 1.0 ==> 0.0 <= opacity * factor <= opacity
    ensures 0.0 <= opacity && factor <= 0.0 ==> opacity * factor <= 0.0
  {
    if 0.0 <= opacity && 0.0 <= factor <= 1.0 {
      assert opacity * factor <= opacity * 1.0;
    }
  }

  function Min(a: real, b: real): real {
    if a <= b then a else b
  }

  /** The fade is `opacity` times a tent clipped at 1: the smaller of 1, five
      times the life ratio, and five times the remaining ratio, for every
      ratio, including ratios past the end of life. */
  lemma FadeIsClippedTent(lifeRatio: real, opacity: real)
    ensures Fade(lifeRatio, opacity)
         == opacity * Min(1.0, Min(5.0 * lifeRatio, 5.0 * (1.0 - lifeRatio)))
  {
    if lifeRatio < 0.2 {
      assert Min(5.0 * lifeRatio, 5.0 * (1.0 - lifeRatio)) == 5.0 * lifeRatio;
    } else if lifeRatio > 0.8 {
      assert Min(5.0 * lifeRatio, 5.0 * (1.0 - lifeRatio)) == 5.0 * (1.0 - lifeRatio);
      assert 1.0 - (lifeRatio - 0.8) * 5.0 == 5.0 * (1.0 - lifeRatio);
    }
  }

  predicate Drawn(alpha: real) {
    alpha > DrawThreshold
  }

  /** A particle whose life ratio has reached 1 is never drawn. */
  lemma OvershotNotDrawn(lifeRatio: real, opacity: real)
    requires 1.0 <= lifeRatio && 0.0 <= opacity
    ensures !Drawn(Fade(lifeRatio, opacity))
  {
  }

  /** `life / maxLife` lies in [0, 1) while the particle is alive and is at
      least 1 once it is not. */
  lemma LifeRatioBounds(life: real, maxLife: real)
    requires 0.0 <= life && 0.0 < maxLife
    ensures life < maxLife ==> 0.0 <= life / maxLife < 1.0
    ensures maxLife <= life ==> 1.0 <= life / maxLife
  {
  }
}

=== FILE: nebula_layer.dfy ===
/** The nebula layer: a few large blurred clouds per variant, shrunk on a
    mobile device, each keyed by its position in the list and animated
    through a slow breathing, rotating, drifting cycle while visible. */
module NebulaLayer {

  import opened Capability
  import opened CssColor
  import Radix
  import Trig

  datatype Nebula = Nebula(x: int, y: int, size: real, color: string, opacity: real)

  /** The `nebulaConfigs` table. */
  function Nebulae(v: Variant): (ns: seq<Nebula>)
    ensures 0 < |ns|
  {
    match v
    case Cosmic => [
      Nebula(15, 25, 400.0, "#3b82f6", 0.15),
      Nebula(70, 60, 350.0, "#a855f7", 0.12),
      Nebula(40, 80, 300.0, "#22d3ee", 0.18)]
    case Philosophical => [
      Nebula(30, 40, 350.0, "#818cf8", 0.14),
      Nebula(65, 20, 280.0, "#a855f7", 0.16)]
    case Transcendent => [
      Nebula(50, 30, 320.0, "#22d3ee", 0.13),
      Nebula(25, 70, 380.0, "#0ea5e9", 0.15)]
  }

  /** A rendered cloud: the configured one with its display size and key. */
  datatype Element = Element(nebula: Nebula, size: real, id: string)

  /** `nebula-${index}`. */
  function Id(index: nat): string {
    "nebula-" + Radix.ToString(index, 10)
  }

  /** `nebulaElements`. */
  function Elements(v: Variant, isMobile: bool): (es: seq<Element>)
    ensures |es| == |Nebulae(v)|
    ensures forall i :: 0 <= i < |es| ==> es[i].nebula == Nebulae(v)[i] && es[i].id == Id(i)
    ensures forall i :: 0 <= i < |es| ==>
      es[i].size == if isMobile then Nebulae(v)[i].size * 0.7 else Nebulae(v)[i].size
  {
    var ns := Nebulae(v);
    seq(|ns|, i requires 0 <= i < |ns| =>
      Element(ns[i], if isMobile then ns[i].size * 0.7 else ns[i].size, Id(i)))
  }

  /** On a mobile device every cloud is drawn smaller than on a desktop,
      and never smaller than 70 percent of it. */
  lemma MobileShrinks(v: Variant)
    ensures forall i :: 0 <= i < |Nebulae(v)| ==>
      0.7 * Elements(v, false)[i].size <= Elements(v, true)[i].size < Elements(v, false)[i].size
  {
  }

  /** Distinct positions give distinct keys, so React's reconciliation sees
      one element per cloud. */
  lemma IdsDistinct(v: Variant, isMobile: bool)
    ensures var es := Elements(v, isMobile);
      forall i, j :: 0 <= i < j < |es| ==> es[i].id != es[j].id
  {
    var es := Elements(v, isMobile);
    forall i, j | 0 <= i < j < |es|
      ensures es[i].id != es[j].id
    {
      Radix.ToStringInjective(i, j, 10);
      assert es[i].id[7..] == Radix.ToString(i, 10);
      assert es[j].id[7..] == Radix.ToString(j, 10);
    }
  }

  /** The first stop of the cloud's radial gradient:
      `${color}${Math.floor(opacity * 255).toString(16)}`. */
  function CoreStop(n: Nebula): (stop: string)
    ensures |n.color| <= |stop| && stop[..|n.color|] == n.color
    ensures Radix.Parse(stop[|n.color|..], 16) == AlphaByte(n.opacity)
    ensures IsHexColor(n.color, 6) ==> (IsHexColor(stop, 8) <==> 16.0 / 255.0 <= n.opacity < 256.0 / 255.0)
  {
    WithOpacity(n.color, n.opacity)
  }

  /** Every configured cloud's core stop is a well-formed `#RRGGBBAA`
      colour: each opacity lies in [16/255, 256/255). */
  lemma CoreStopsWellFormed(v: Variant)
    ensures forall i :: 0 <= i < |Nebulae(v)| ==> IsHexColor(CoreStop(Nebulae(v)[i]), 8)
  {
    var ns := Nebulae(v);
    forall i | 0 <= i < |ns|
      ensures IsHexColor(CoreStop(ns[i]), 8)
    {
      var n := ns[i];
      assert IsHexColor(n.color, 6) && 16.0 / 255.0 <= n.opacity < 256.0 / 255.0;
    }
  }

  /** The animated properties of a cloud: opacity, scale, rotation in
      degrees and the x/y drift in pixels. */
  datatype Pose = Pose(opacity: real, scale: real, rotate: real, x: real, y: real)

  /** The starting pose. `initial` names three of its values: opacity 0,
      scale 0.8 and rotate 0. It leaves x and y out; they start at the
      animation library's default of 0. */
  function Initial(): Pose {
    Pose(0.0, 0.8, 0.0, 0.0, 0.0)
  }

  /** An animation target: the hidden target names only opacity and scale;
      the visible one gives keyframe lists for every property. */
  datatype Target =
    | Hidden(opacity: real, scale: real)
    | Cycle(opacities: seq<real>, scales: seq<real>, rotations: seq<real>, dx: seq<real>, dy: seq<real>)

  /** The target of cloud `index`: the breathing cycle while visible,
      offsets `sin(index * 45) * 20` and `cos(index * 45) * 15` at mid
      cycle; while hidden, only opacity 0 and scale 0.8. */
  function AnimateTarget(index: nat, isVisible: bool, sin: real -> real, cos: real -> real): (t: Target)
    ensures !isVisible <==> t.Hidden?
    ensures t.Hidden? ==> t.opacity == Initial().opacity && t.scale == Initial().scale
    ensures isVisible ==> (t.Cycle? && |t.opacities| == 4 && |t.scales| == 4 && |t.rotations| == 3
                           && |t.dx| == 3 && |t.dy| == 3)
  {
    if isVisible then
      Cycle([0.0, 1.0, 0.7, 1.0], [0.8, 1.2, 1.0, 1.1], [0.0, 180.0, 360.0],
            [0.0, sin(index as real * 45.0) * 20.0, 0.0],
            [0.0, cos(index as real * 45.0) * 15.0, 0.0])
    else Hidden(0.0, 0.8)
  }

  /** The visible cycle starts from the initial pose, turns exactly once,
      and, with sine and cosine bounded by 1, drifts at most 20px sideways
      and 15px vertically before returning to where it started. */
  lemma CycleShape(index: nat, sin: real -> real, cos: real -> real)
    requires Trig.Bounded(sin) && Trig.Bounded(cos)
    ensures var t := AnimateTarget(index, true, sin, cos);
      && t.opacities[0] == Initial().opacity && t.scales[0] == Initial().scale
      && t.rotations[0] == Initial().rotate
      && t.rotations[2] - t.rotations[0] == 360.0
      && t.dx[0] == t.dx[2] == Initial().x && t.dy[0] == t.dy[2] == Initial().y
      && -20.0 <= t.dx[1] <= 20.0 && -15.0 <= t.dy[1] <= 15.0
      && forall k :: 0 <= k < 4 ==> 0.0 <= t.opacities[k] <= 1.0
  {
    var a := index as real * 45.0;
    Trig.ScaledSine(sin(a), 20.0);
    Trig.ScaledSine(cos(a), 15.0);
  }

  /** `duration: 30 + index * 5`, in seconds. */
  function Duration(index: nat): (d: real)
    ensures 30.0 <= d
  {
    30.0 + index as real * 5.0
  }

  /** `delay: index * 2`, in seconds. */
  function Delay(index: nat): (d: real)
    ensures 0.0 <= d
    ensures d == 0.0 <==> index == 0
  {
    index as real * 2.0
  }

  /** Later clouds start later and breathe more slowly, so no two clouds of
      a variant move in step. */
  lemma Staggered(i: nat, j: nat)
    requires i < j
    ensures Delay(i) < Delay(j) && Duration(i) < Duration(j)
  {
  }
}

=== FILE: options.dfy ===
/** The optional value used where the source has `null` or an absent field. */
module Options {

  datatype Option<T> = None | Some(value: T)
}

=== FILE: particle_system_layer.dfy ===
/** The particle-system layer: the same drift, wrap, fade and respawn rules as
    the generic background, with its own ranges and count tables, plus a
    trail of the last eight positions per particle. */
module ParticleSystemLayer {

  import opened Capability
  import opened Draws
  import opened Motion
  import opened Scheduler
  import Trail

  /** A variant's hue range and its particle count per intensity tier. */
  datatype LayerConfig = LayerConfig(hueLow: real, hueHigh: real, count: CountTable)

  /** The `particleConfigs` table. */
  function Config(v: Variant): (c: LayerConfig)
    ensures c.hueLow < c.hueHigh
    ensures c.count.Monotone()
  {
    match v
    case Cosmic => LayerConfig(220.0, 280.0, CountTable(15, 30, 50))
    case Philosophical => LayerConfig(260.0, 300.0, CountTable(10, 20, 35))
    case Transcendent => LayerConfig(180.0, 240.0, CountTable(12, 25, 40))
  }

  /** The number of particles: the low-tier count on a mobile device. */
  function ParticleCount(v: Variant, isMobile: bool, intensity: Intensity): (n: nat)
    ensures isMobile ==> n == Config(v).count.low
    ensures !isMobile ==> n == Config(v).count.At(intensity)
    ensures n <= Config(v).count.high
  {
    TierCount(Config(v).count, isMobile, intensity)
  }

  /** The longest trail a particle keeps. */
  const TrailLength: nat := 8

  datatype TrailPoint = TrailPoint(x: real, y: real, alpha: real)

  datatype Particle = Particle(
    x: real, y: real,
    vx: real, vy: real,
    size: real, opacity: real, hue: real,
    life: real, maxLife: real,
    trail: seq<TrailPoint>)

  predicate InRanges(v: Variant, p: Particle) {
    && 8000.0 <= p.maxLife < 12000.0
    && -0.15 <= p.vx < 0.15 && -0.15 <= p.vy < 0.15
    && 1.0 <= p.size < 3.0
    && 0.3 <= p.opacity < 0.7
    && Config(v).hueLow <= p.hue < Config(v).hueHigh
  }

  /** What holds of every particle between frames. */
  predicate Live(v: Variant, p: Particle) {
    InRanges(v, p) && 0.0 <= p.life < p.maxLife && |p.trail| <= TrailLength
  }

  const DrawsPerParticle: nat := 8

  /** A fresh particle from eight draws in call order (max life, x, y, vx,
      vy, size, opacity, hue), with no trail yet. */
  function CreateParticle(v: Variant, s: Surface, rs: seq<real>): (p: Particle)
    requires s.Valid() && AreDraws(rs, DrawsPerParticle)
    ensures Live(v, p) && p.life == 0.0 && p.trail == []
    ensures 0.0 <= p.x <= s.width && 0.0 <= p.y <= s.height
  {
    var c := Config(v);
    var r0, r1, r2, r3, r4, r5, r6, r7 := rs[0], rs[1], rs[2], rs[3], rs[4], rs[5], rs[6], rs[7];
    assert IsDraw(r0) && IsDraw(r1) && IsDraw(r2) && IsDraw(r3);
    assert IsDraw(r4) && IsDraw(r5) && IsDraw(r6) && IsDraw(r7);
    Particle(
      x := Scaled(r1, s.width),
      y := Scaled(r2, s.height),
      vx := (r3 - 0.5) * 0.3,
      vy := (r4 - 0.5) * 0.3,
      size := r5 * 2.0 + 1.0,
      opacity := r6 * 0.4 + 0.3,
      hue := Uniform(r7, c.hueLow, c.hueHigh),
      life := 0.0,
      maxLife := 8000.0 + r0 * 4000.0,
      trail := [])
  }

  datatype Stepped = Stepped(next: Particle, alpha: real)

  /** One particle's update in an accepted frame: move, age, push the moved
      (not yet wrapped) position onto the trail and drop the oldest point
      past eight, wrap, fade, and respawn with an empty trail when dead. */
  function Step(v: Variant, p: Particle, delta: real, s: Surface, rs: seq<real>): (r: Stepped)
    requires Live(v, p) && 0.0 <= delta
    requires s.Valid() && AreDraws(rs, DrawsPerParticle)
    ensures Live(v, r.next)
    ensures -Margin <= r.next.x <= s.width + Margin
    ensures -Margin <= r.next.y <= s.height + Margin
    ensures p.life + delta < p.maxLife ==>
      && r.next.trail == Trail.Push(p.trail, TrailPoint(p.x + p.vx, p.y + p.vy, p.opacity), TrailLength)
      && r.next.x == Wrap(p.x + p.vx, s.width) && r.next.y == Wrap(p.y + p.vy, s.height)
      && r.next.life == p.life + delta
      && r.next == p.(x := r.next.x, y := r.next.y, life := r.next.life, trail := r.next.trail)
    ensures p.life + delta >= p.maxLife ==> r.next == CreateParticle(v, s, rs) && r.next.trail == []
    ensures r.alpha == Fade((p.life + delta) / p.maxLife, p.opacity)
    ensures p.life + delta < p.maxLife ==> 0.0 <= r.alpha <= p.opacity
    ensures Drawn(r.alpha) ==> p.life + delta < p.maxLife
  {
    var moved := p.(x := p.x + p.vx, y := p.y + p.vy, life := p.life + delta);
    var trailed := moved.(trail := Trail.Push(moved.trail, TrailPoint(moved.x, moved.y, moved.opacity), TrailLength));
    var wrapped := trailed.(x := Wrap(trailed.x, s.width), y := Wrap(trailed.y, s.height));
    var lifeRatio := wrapped.life / wrapped.maxLife;
    LifeRatioBounds(wrapped.life, wrapped.maxLife);
    var alpha := Fade(lifeRatio, wrapped.opacity);
    if wrapped.life >= wrapped.maxLife then
      OvershotNotDrawn(lifeRatio, wrapped.opacity);
      Stepped(CreateParticle(v, s, rs), alpha)
    else
      Stepped(wrapped, alpha)
  }

  /** After a frame the newest trail point is the moved position and the
      trail is capped at eight: one point of history is lost per frame once
      the trail is full, and none before. */
  lemma TrailAfterStep(v: Variant, p: Particle, delta: real, s: Surface, rs: seq<real>)
    requires Live(v, p) && 0.0 <= delta
    requires s.Valid() && AreDraws(rs, DrawsPerParticle)
    requires p.life + delta < p.maxLife
    ensures var t := Step(v, p, delta, s, rs).next.trail;
      && 1 <= |t| <= TrailLength
      && t[|t| - 1] == TrailPoint(p.x + p.vx, p.y + p.vy, p.opacity)
      && (|p.trail| < TrailLength ==> t[..|t| - 1] == p.trail)
      && (|p.trail| == TrailLength ==> t[..|t| - 1] == p.trail[1..])
  {
    var t := Step(v, p, delta, s, rs).next.trail;
    assert t[..|t| - 1] == (if |p.trail| < TrailLength then p.trail else p.trail[1..]);
  }

  /** The trail records the position before wrapping: a particle leaving the
      left edge is wrapped back into range, while its newest trail point is
      still outside it. */
  lemma NewestTrailPointNotWrapped()
    ensures var v := Cosmic;
      var s := Surface(100.0, 100.0);
      var p := Particle(-50.0, 10.0, -0.1, 0.0, 2.0, 0.5, 250.0, 100.0, 10000.0, []);
      var r := Step(v, p, 20.0, s, [0.0, 0.0, 0.0, 0.0, 0.0, 0.0, 0.0, 0.0]).next;
      && Live(v, p)
      && -Margin <= r.x <= s.width + Margin
      && r.trail[|r.trail| - 1].x < -Margin
  {
    var v := Cosmic;
    var s := Surface(100.0, 100.0);
    var p := Particle(-50.0, 10.0, -0.1, 0.0, 2.0, 0.5, 250.0, 100.0, 10000.0, []);
    var rs := [0.0, 0.0, 0.0, 0.0, 0.0, 0.0, 0.0, 0.0];
    assert AreDraws(rs, DrawsPerParticle);
    TrailAfterStep(v, p, 20.0, s, rs);
  }

  /** The alpha of trail point `index`: `(alpha * (index / length)) * 0.3`,
      so older points are fainter and every point is fainter than 0.3 of
      the particle itself. */
  function TrailAlpha(alpha: real, index: nat, length: nat): (a: real)
    requires index < length
    ensures 0.0 <= alpha ==> 0.0 <= a <= 0.3 * alpha
    ensures 0.0 < alpha ==> a < 0.3 * alpha
    ensures index == 0 ==> a == 0.0
  {
    var f := Trail.Ramp(index, length);
    RampScale(alpha, f);
    (alpha * f) * 0.3
  }

  lemma RampScale(alpha: real, f: real)
    requires 0.0 <= f < 1.0
    ensures 0.0 <= alpha ==> 0.0 <= alpha * f <= alpha
    ensures 0.0 < alpha ==> alpha * f < alpha
  {
  }

  datatype Engine = Engine(lastTime: real, particles: seq<Particle>)

  predicate Valid(v: Variant, e: Engine) {
    forall i :: 0 <= i < |e.particles| ==> Live(v, e.particles[i])
  }

  /** `initParticles`, run at start and again on every resize: a pool of
      exactly `ParticleCount` fresh particles with empty trails. It does not
      touch the frame baseline `lastTime`. */
  function Initialize(v: Variant, isMobile: bool, intensity: Intensity, s: Surface, lastTime: real,
                      draws: seq<seq<real>>): (e: Engine)
    requires s.Valid()
    requires AreDrawBatches(draws, ParticleCount(v, isMobile, intensity), DrawsPerParticle)
    ensures |e.particles| == ParticleCount(v, isMobile, intensity)
    ensures Valid(v, e) && e.lastTime == lastTime
    ensures forall i :: 0 <= i < |e.particles| ==>
      e.particles[i].trail == [] && e.particles[i].life == 0.0
  {
    Engine(lastTime, seq(|draws|, i requires 0 <= i < |draws| => CreateParticle(v, s, draws[i])))
  }

  /** One frame callback: halts when the layer is not visible, is throttled
      below one frame interval, and otherwise steps every particle. */
  function Animate(v: Variant, e: Engine, now: real, isVisible: bool, s: Surface,
                   draws: seq<seq<real>>): (r: (Engine, Decision))
    requires Valid(v, e) && s.Valid()
    requires AreDrawBatches(draws, |e.particles|, DrawsPerParticle)
    ensures r.1 == Decide(isVisible, e.lastTime, now)
    ensures !r.1.Accept? ==> r.0 == e
    ensures r.1.Accept? ==> r.0.lastTime == now
    ensures |r.0.particles| == |e.particles|
    ensures Valid(v, r.0)
    ensures r.1.Accept? ==> forall i :: 0 <= i < |e.particles| ==>
      r.0.particles[i] == Step(v, e.particles[i], r.1.delta, s, draws[i]).next
  {
    var d := Decide(isVisible, e.lastTime, now);
    if !d.Accept? then (e, d)
    else
      var ps := seq(|e.particles|, i requires 0 <= i < |e.particles| =>
        Step(v, e.particles[i], d.delta, s, draws[i]).next);
      (Engine(now, ps), d)
  }
}

=== FILE: radix.dfy ===
/** Conversion of integral numbers to text in a given radix, as JavaScript's
    `Number.prototype.toString(radix)` performs it for integer values
    (ECMA-262, section 21.1.3.6): most significant digit first, no leading
    zeros, lower-case letters for digit values above 9, and a leading '-' for
    negative numbers. Template-literal interpolation of an integer is the
    radix-10 case. `Parse` is the inverse used to state the round trip. */
module Radix {

  predicate IsRadix(b: int) {
    2 <= b <= 36
  }

  /** The character that stands for digit value `d`. */
  function DigitChar(d: nat): (c: char)
    requires d < 36
    ensures IsDigitChar(c)
    ensures DigitValue(c) == d
  {
    if d < 10 then ('0' as int + d) as char else ('a' as int + (d - 10)) as char
  }

  predicate IsDigitChar(c: char) {
    '0' <= c <= '9' || 'a' <= c <= 'z'
  }

  /** The value of a digit character; 0 for anything else. */
  function DigitValue(c: char): nat {
    if '0' <= c <= '9' then c as int - '0' as int
    else if 'a' <= c <= 'z' then c as int - 'a' as int + 10
    else 0
  }

  /** `c` is a digit of radix `b`. */
  predicate IsDigitOf(c: char, b: int) {
    IsDigitChar(c) && DigitValue(c) < b
  }

  /** The digits of a natural number, most significant first. */
  function Digits(n: nat, b: int): (s: string)
    requires IsRadix(b)
    ensures 1 <= |s|
    ensures forall i :: 0 <= i < |s| ==> IsDigitOf(s[i], b)
    ensures s[0] == '0' ==> n == 0
    decreases n
  {
    if n < b then [DigitChar(n)]
    else
      DivisionShrinks(n, b);
      Digits(n / b, b) + [DigitChar(n % b)]
  }

  /** Dividing by the radix shrinks a number that is not a single digit, and
      keeps it positive. */
  lemma DivisionShrinks(n: nat, b: int)
    requires IsRadix(b) && b <= n
    ensures 1 <= n / b < n
    ensures 0 <= n % b < b
    ensures n == n / b * b + n % b
  {
    var q := n / b;
    assert n == q * b + n % b;
    assert q * b >= q * 2;
  }

  /** `n.toString(b)` for an integral `n`. */
  function ToString(n: int, b: int): (s: string)
    requires IsRadix(b)
    ensures 1 <= |s|
    ensures s[0] == '-' <==> n < 0
    ensures forall i :: (if n < 0 then 1 else 0) <= i < |s| ==> IsDigitOf(s[i], b)
  {
    if n < 0 then "-" + Digits(-n, b) else Digits(n, b)
  }

  /** The value of a string of digits read most significant first. */
  function Value(s: string, b: nat): nat {
    if |s| == 0 then 0 else Value(s[..|s| - 1], b) * b + DigitValue(s[|s| - 1])
  }

  /** Reads back what `ToString` writes. */
  function Parse(s: string, b: nat): int {
    if 0 < |s| && s[0] == '-' then 0 - Value(s[1..], b) else Value(s, b)
  }

  lemma {:induction false} ValueOfDigits(n: nat, b: int)
    requires IsRadix(b)
    ensures Value(Digits(n, b), b) == n
    decreases n
  {
    if n >= b {
      DivisionShrinks(n, b);
      var s := Digits(n, b);
      assert s[..|s| - 1] == Digits(n / b, b);
      ValueOfDigits(n / b, b);
    }
  }

  /** Round trip: every integer is recovered from its text. */
  lemma ParseToString(n: int, b: int)
    requires IsRadix(b)
    ensures Parse(ToString(n, b), b) == n
  {
    if n < 0 {
      assert ToString(n, b)[1..] == Digits(-n, b);
      ValueOfDigits(-n, b);
    } else {
      ValueOfDigits(n, b);
    }
  }

  /** Distinct integers have distinct text. */
  lemma ToStringInjective(m: int, n: int, b: int)
    requires IsRadix(b)
    ensures ToString(m, b) == ToString(n, b) <==> m == n
  {
    if ToString(m, b) == ToString(n, b) {
      ParseToString(m, b);
      ParseToString(n, b);
    }
  }

  /** The number of digits: one below the radix, two below its square,
      at least three from there on. */
  lemma {:induction false} DigitCount(n: nat, b: int)
    requires IsRadix(b)
    ensures |Digits(n, b)| == 1 <==> n < b
    ensures |Digits(n, b)| == 2 <==> b <= n < b * b
  {
    if n >= b {
      DivisionShrinks(n, b);
      var q := n / b;
      QuotientBelowRadix(n, b);
      if q >= b {
        DivisionShrinks(q, b);
        assert |Digits(q, b)| == |Digits(q / b, b)| + 1;
      }
    }
  }

  /** A number has a one-digit quotient exactly when it is below the square
      of the radix. */
  lemma QuotientBelowRadix(n: nat, b: int)
    requires IsRadix(b)
    ensures n / b < b <==> n < b * b
  {
    var q := n / b;
    var r := n % b;
    assert n == q * b + r && 0 <= r < b;
    if q < b {
      assert q <= b - 1;
      MulMonotone(q, b - 1, b);
      assert n < b * b;
    } else {
      MulMonotone(b, q, b);
      assert n >= b * b;
    }
  }

  lemma MulMonotone(x: int, y: int, k: nat)
    requires x <= y
    ensures x * k <= y * k
  {
  }
}

=== FILE: scheduler.dfy ===
/** The frame gate each throttled layer applies at the top of its
    `requestAnimationFrame` callback, and the scroll gate. Both are two-field
    state machines: a timestamp of the last accepted event and the state that
    event updates. */
module Scheduler {

  /** Minimum time between two accepted frames, in milliseconds (60 Hz). */
  const FrameInterval: real := 16.67

  /** Minimum time between two accepted scroll events, in milliseconds. */
  const ScrollInterval: real := 16.0

  /** What a frame callback does: return without asking for another frame,
      ask for another frame without doing work, or do one step of `delta`
      milliseconds and ask for another frame. */
  datatype Decision = Halt | Throttle | Accept(delta: real) {
    /** Whether the callback requests the next animation frame. */
    predicate Reschedules() {
      !Halt?
    }
  }

  /** An event at `now` passes a gate of `interval` whose last accepted event
      was at `last` unless it comes too soon. */
  predicate Admits(last: real, now: real, interval: real) {
    !(now - last < interval)
  }

  function Decide(running: bool, lastTime: real, now: real): (d: Decision)
    ensures d.Halt? <==> !running
    ensures d.Throttle? <==> running && now - lastTime < FrameInterval
    ensures d.Accept? <==> running && Admits(lastTime, now, FrameInterval)
    ensures d.Accept? ==> d.delta == now - lastTime && d.delta >= FrameInterval
  {
    if !running then Halt
    else if now - lastTime < FrameInterval then Throttle
    else Accept(now - lastTime)
  }

  /** The event times a gate of `interval` accepts when events arrive at
      `times`, in order, starting from the baseline `start`: each accepted
      event moves the baseline to its own time, a rejected one leaves it.
      With `FrameInterval` this is a running layer's frame gate, since
      `Decide(true, last, now)` accepts exactly when `Admits` does. */
  function Accepted(start: real, times: seq<real>, interval: real): (acc: seq<real>)
    ensures |acc| <= |times|
    decreases |times|
  {
    if |times| == 0 then []
    else if Admits(start, times[0], interval) then [times[0]] + Accepted(times[0], times[1..], interval)
    else Accepted(start, times[1..], interval)
  }

  /** Over any run, the first accepted event comes at least one interval
      after the starting baseline, each accepted event at least one interval
      after the previous accepted one, and every accepted time is one of the
      event times. */
  lemma {:induction false} AcceptedSpaced(start: real, times: seq<real>, interval: real)
    ensures var acc := Accepted(start, times, interval);
      && (0 < |acc| ==> acc[0] - start >= interval)
      && (forall k :: 1 <= k < |acc| ==> acc[k] - acc[k - 1] >= interval)
      && (forall k :: 0 <= k < |acc| ==> acc[k] in times)
    decreases |times|
  {
    if |times| > 0 {
      var rest := times[1..];
      if Admits(start, times[0], interval) {
        AcceptedSpaced(times[0], rest, interval);
        var acc := Accepted(start, times, interval);
        assert acc == [times[0]] + Accepted(times[0], rest, interval);
        forall k | 0 <= k < |acc|
          ensures acc[k] in times
        {
          if k > 0 {
            assert acc[k] == Accepted(times[0], rest, interval)[k - 1];
          }
        }
      } else {
        AcceptedSpaced(start, rest, interval);
      }
    }
  }

  /** An event is rejected only because it came within one interval of the
      current baseline: no event at least one interval after the baseline is
      skipped. */
  lemma AcceptsFirstLateEvent(start: real, now: real, times: seq<real>, interval: real)
    requires now - start >= interval
    ensures Accepted(start, [now] + times, interval) == [now] + Accepted(now, times, interval)
  {
    assert ([now] + times)[1..] == times;
  }
}

=== FILE: simplified_space_background.dfy ===
/** The full-page space background: twinkling stars that never move, and a
    few celestial objects (asteroids, comets, planets) that drift to the right
    and are recycled at the left edge once they leave the window. Comets keep
    a trail of their last twenty positions. Under reduced motion objects do
    not advance, the twinkle freezes at one half and no trail is recorded,
    but an object already past the recycle edge is still moved back to the
    left edge at a new height. */
module SimplifiedSpaceBackground {

  import opened Draws
  import opened Scheduler
  import opened Options
  import Trig
  import Trail
  import CssColor

  /** Windows narrower than this many CSS pixels count as mobile. */
  const MobileBreakpoint: nat := 768

  datatype Star = Star(x: real, y: real, size: real, brightness: real,
                       twinkleSpeed: real, twinklePhase: real)

  predicate StarInRanges(s: Star) {
    && 0.5 <= s.size < 3.5
    && 0.2 <= s.brightness < 1.0
    && 0.01 <= s.twinkleSpeed < 0.03
  }

  /** A fresh star from six draws in call order (x, y, size, brightness,
      twinkle speed, twinkle phase), on a window `width` wide and a document
      `fullHeight` tall. */
  function CreateStar(width: nat, fullHeight: real, rs: seq<real>): (s: Star)
    requires 0.0 <= fullHeight && AreDraws(rs, 6)
    ensures StarInRanges(s)
    ensures 0.0 <= s.twinklePhase < Trig.TwoPi
    ensures 0.0 <= s.x <= width as real && 0.0 <= s.y <= fullHeight
  {
    var r0, r1, r2, r3, r4, r5 := rs[0], rs[1], rs[2], rs[3], rs[4], rs[5];
    assert IsDraw(r0) && IsDraw(r1) && IsDraw(r2) && IsDraw(r3) && IsDraw(r4) && IsDraw(r5);
    Star(
      x := Scaled(r0, width as real),
      y := Scaled(r1, fullHeight),
      size := r2 * 3.0 + 0.5,
      brightness := r3 * 0.8 + 0.2,
      twinkleSpeed := 0.01 + r4 * 0.02,
      twinklePhase := Scaled(r5, Trig.Pi * 2.0))
  }

  /** `Math.min(isMobile ? 150 : 300, innerWidth * 0.25)` used as an array
      length, which truncates it to an integer. */
  function StarCount(width: nat): (n: nat)
    ensures n <= 300
    ensures width < MobileBreakpoint ==> n <= 150
    ensures n as real <= width as real * 0.25
    ensures var base := if width < MobileBreakpoint then 150 else 300;
      n == if base <= width / 4 then base else width / 4
  {
    var base: nat := if width < MobileBreakpoint then 150 else 300;
    var quarter := width as real * 0.25;
    QuarterFloor(width);
    (if base as real <= quarter then base as real else quarter).Floor
  }

  /** A quarter of a whole number of pixels truncates to integer division. */
  lemma QuarterFloor(width: nat)
    ensures (width as real * 0.25).Floor == width / 4
  {
    var q := width / 4;
    assert width == 4 * q + width % 4;
    assert width as real * 0.25 == q as real + (width % 4) as real * 0.25;
  }

  /** Fewer celestial objects on mobile. */
  function CelestialCount(width: nat): (n: nat)
    ensures width < MobileBreakpoint <==> n == 4
    ensures width >= MobileBreakpoint <==> n == 8
  {
    if width < MobileBreakpoint then 4 else 8
  }

  datatype Kind = Asteroid | Comet | Planet

  /** `types[Math.floor(Math.random() * types.length)]`. */
  const Kinds: seq<Kind> := [Asteroid, Comet, Planet]

  /** The `colors` table: each kind's `#RRGGBB` colour, cyan only for
      comets. */
  function KindColor(k: Kind): (c: string)
    ensures CssColor.IsHexColor(c, 6)
    ensures k.Comet? <==> c == "#22d3ee"
  {
    match k
    case Asteroid => "#8b7355"
    case Comet => "#22d3ee"
    case Planet => "#a855f7"
  }

  /** The three kinds are told apart by colour alone. */
  lemma KindColorsDistinct(j: Kind, k: Kind)
    ensures KindColor(j) == KindColor(k) <==> j == k
  {
  }

  /** The longest comet trail. */
  const CometTrailLength: nat := 20

  datatype TrailPoint = TrailPoint(x: real, y: real, alpha: real)

  datatype CelestialObject = CelestialObject(
    x: real, y: real, size: real, speed: real,
    kind: Kind, color: string,
    trail: Option<seq<TrailPoint>>)

  /** What every celestial object satisfies from creation on: size and speed
      in its kind's range, its kind's colour, and a bounded trail exactly
      when it is a comet. */
  predicate WellFormed(o: CelestialObject) {
    && (o.kind == Planet ==> 4.0 <= o.size < 12.0 && 0.1 <= o.speed < 0.3)
    && (o.kind != Planet ==> 2.0 <= o.size < 6.0 && 0.3 <= o.speed < 1.0)
    && o.color == KindColor(o.kind)
    && (o.trail.Some? <==> o.kind == Comet)
    && (o.trail.Some? ==> |o.trail.value| <= CometTrailLength)
  }

  /** A fresh object at the left edge from four draws in call order (kind, y,
      size, speed). */
  function CreateCelestialObject(fullHeight: real, rs: seq<real>): (o: CelestialObject)
    requires 0.0 <= fullHeight && AreDraws(rs, 4)
    ensures WellFormed(o)
    ensures o.x == -50.0 && 0.0 <= o.y <= fullHeight
    ensures o.kind == Comet ==> o.trail == Some([])
  {
    var r0, r1, r2, r3 := rs[0], rs[1], rs[2], rs[3];
    assert IsDraw(r0) && IsDraw(r1) && IsDraw(r2) && IsDraw(r3);
    var kind := Kinds[Index(r0, |Kinds|)];
    CelestialObject(
      x := -50.0,
      y := Scaled(r1, fullHeight),
      size := if kind == Planet then r2 * 8.0 + 4.0 else r2 * 4.0 + 2.0,
      speed := if kind == Planet then 0.1 + r3 * 0.2 else 0.3 + r3 * 0.7,
      kind := kind,
      color := KindColor(kind),
      trail := if kind == Comet then Some([]) else None)
  }

  /** One object's update in an accepted frame: advance by its speed unless
      motion is reduced, return to x = -50 at a new height `ry * fullHeight`
      once past `width + 100`, and, for a comet without reduced motion, push
      its position onto its trail. */
  function StepObject(o: CelestialObject, isReducedMotion: bool, width: nat, fullHeight: real,
                      ry: real): (r: CelestialObject)
    requires WellFormed(o) && 0.0 <= fullHeight && IsDraw(ry)
    ensures WellFormed(r)
    ensures r.kind == o.kind && r.size == o.size && r.speed == o.speed && r.color == o.color
    ensures var moved := if isReducedMotion then o.x else o.x + o.speed;
      if moved > width as real + 100.0 then r.x == -50.0 && 0.0 <= r.y <= fullHeight
      else r.x == moved && r.y == o.y
    ensures isReducedMotion ==> r.trail == o.trail
    ensures !isReducedMotion && o.kind == Comet ==>
      r.trail == Some(Trail.Push(o.trail.value, TrailPoint(r.x, r.y, 1.0), CometTrailLength))
    ensures r.x <= width as real + 100.0
  {
    var x := if !isReducedMotion then o.x + o.speed else o.x;
    var placed := if x > width as real + 100.0 then o.(x := -50.0, y := Scaled(ry, fullHeight)) else o.(x := x);
    if placed.kind == Comet && placed.trail.Some? && !isReducedMotion then
      placed.(trail := Some(Trail.Push(placed.trail.value, TrailPoint(placed.x, placed.y, 1.0), CometTrailLength)))
    else
      placed
  }

  /** Recycling keeps what the object is: only its position changes, and a
      comet keeps the trail it had (plus the new point). */
  lemma RecycleKeepsIdentity(o: CelestialObject, width: nat, fullHeight: real, ry: real)
    requires WellFormed(o) && 0.0 <= fullHeight && IsDraw(ry)
    requires o.x + o.speed > width as real + 100.0
    ensures var r := StepObject(o, false, width, fullHeight, ry);
      && r.x == -50.0
      && r.kind == o.kind && r.size == o.size && r.speed == o.speed && r.color == o.color
      && (o.kind == Comet ==>
            r.trail.value[..|r.trail.value| - 1]
            == (if |o.trail.value| < CometTrailLength then o.trail.value else o.trail.value[1..]))
  {
    var r := StepObject(o, false, width, fullHeight, ry);
    if o.kind == Comet {
      var t := r.trail.value;
      assert t[..|t| - 1] == if |o.trail.value| < CometTrailLength then o.trail.value else o.trail.value[1..];
    }
  }

  /** `(trailIndex / trail.length) * 0.6`. */
  function CometTrailAlpha(index: nat, length: nat): (a: real)
    requires index < length
    ensures 0.0 <= a < 0.6
    ensures index == 0 ==> a == 0.0
  {
    Trail.Ramp(index, length) * 0.6
  }

  /** A star's update in an accepted frame: its phase advances by its speed
      unless motion is reduced. Nothing else about it ever changes. */
  function StepStar(s: Star, isReducedMotion: bool): (r: Star)
    ensures r == s.(twinklePhase := r.twinklePhase)
    ensures isReducedMotion ==> r == s
    ensures !isReducedMotion ==> r.twinklePhase > s.twinklePhase || s.twinkleSpeed <= 0.0
    ensures !isReducedMotion ==> r.twinklePhase - s.twinklePhase == s.twinkleSpeed
  {
    if !isReducedMotion then s.(twinklePhase := s.twinklePhase + s.twinkleSpeed) else s
  }

  /** `(Math.sin(phase) + 1) * 0.5`, or 0.5 under reduced motion. */
  function Twinkle(s: Star, isReducedMotion: bool, sin: real -> real): (t: real)
    requires Trig.Bounded(sin)
    ensures 0.0 <= t <= 1.0
    ensures isReducedMotion ==> t == 0.5
  {
    if isReducedMotion then 0.5 else (sin(s.twinklePhase) + 1.0) * 0.5
  }

  /** `brightness * (0.3 + twinkle * 0.7)`: never below 30% of the star's
      brightness and never above it; a fixed 65% under reduced motion. */
  function StarAlpha(s: Star, isReducedMotion: bool, sin: real -> real): (a: real)
    requires Trig.Bounded(sin) && 0.0 <= s.brightness
    ensures 0.3 * s.brightness <= a <= s.brightness
    ensures isReducedMotion ==> a == 0.65 * s.brightness
  {
    var t := Twinkle(s, isReducedMotion, sin);
    var f := 0.3 + t * 0.7;
    assert 0.3 <= f <= 1.0;
    FactorBounds(s.brightness, f);
    s.brightness * f
  }

  /** Stars larger than 2px sparkle while their twinkle is above 0.8; with
      motion reduced the twinkle stays at one half, so none ever does. */
  function Sparkles(s: Star, isReducedMotion: bool, sin: real -> real): (on: bool)
    requires Trig.Bounded(sin)
    ensures on ==> s.size > 2.0 && !isReducedMotion
  {
    s.size > 2.0 && Twinkle(s, isReducedMotion, sin) > 0.8
  }

  lemma FactorBounds(b: real, f: real)
    requires 0.0 <= b && 0.3 <= f <= 1.0
    ensures 0.3 * b <= b * f <= b
  {
  }

  datatype Engine = Engine(lastTime: real, stars: seq<Star>, objects: seq<CelestialObject>)

  predicate Valid(e: Engine) {
    && (forall i :: 0 <= i < |e.stars| ==> StarInRanges(e.stars[i]))
    && (forall i :: 0 <= i < |e.objects| ==> WellFormed(e.objects[i]))
  }

  /** `initializeObjects`, run at start and on every resize: new stars and
      objects, counted by the window width. It does not touch the frame
      baseline `lastTime`. */
  function Initialize(width: nat, fullHeight: real, lastTime: real,
                      starDraws: seq<seq<real>>, objectDraws: seq<seq<real>>): (e: Engine)
    requires 0.0 <= fullHeight
    requires AreDrawBatches(starDraws, StarCount(width), 6)
    requires AreDrawBatches(objectDraws, CelestialCount(width), 4)
    ensures |e.stars| == StarCount(width) && |e.objects| == CelestialCount(width)
    ensures Valid(e) && e.lastTime == lastTime
    ensures forall i :: 0 <= i < |e.objects| ==> e.objects[i].x == -50.0
  {
    Engine(lastTime,
      seq(|starDraws|, i requires 0 <= i < |starDraws| => CreateStar(width, fullHeight, starDraws[i])),
      seq(|objectDraws|, i requires 0 <= i < |objectDraws| => CreateCelestialObject(fullHeight, objectDraws[i])))
  }

  /** One frame callback: halts when the page is hidden, is throttled below
      one frame interval, and otherwise updates every star and object, the
      object `i` using draw `ys[i]` if it is recycled. */
  function Animate(e: Engine, now: real, isVisible: bool, isReducedMotion: bool,
                   width: nat, fullHeight: real, ys: seq<real>): (r: (Engine, Decision))
    requires Valid(e) && 0.0 <= fullHeight && AreDraws(ys, |e.objects|)
    ensures r.1 == Decide(isVisible, e.lastTime, now)
    ensures !r.1.Accept? ==> r.0 == e
    ensures r.1.Accept? ==> r.0.lastTime == now
    ensures |r.0.stars| == |e.stars| && |r.0.objects| == |e.objects|
    ensures Valid(r.0)
    ensures r.1.Accept? ==> forall i :: 0 <= i < |e.objects| ==>
      r.0.objects[i] == StepObject(e.objects[i], isReducedMotion, width, fullHeight, ys[i])
    ensures r.1.Accept? ==> forall i :: 0 <= i < |e.stars| ==>
      r.0.stars[i] == StepStar(e.stars[i], isReducedMotion)
  {
    var d := Decide(isVisible, e.lastTime, now);
    if !d.Accept? then (e, d)
    else
      var stars := seq(|e.stars|, i requires 0 <= i < |e.stars| => StepStar(e.stars[i], isReducedMotion));
      var objects := seq(|e.objects|, i requires 0 <= i < |e.objects| =>
        StepObject(e.objects[i], isReducedMotion, width, fullHeight, ys[i]));
      (Engine(now, stars, objects), d)
  }
}

=== FILE: star_field_layer.dfy ===
/** The star-field layer: a fixed set of stars per variant whose only change
    over time is their drawn alpha, a sine twinkle of their brightness. The
    layer has no frame throttle and never moves a star. */
module StarFieldLayer {

  import opened Capability
  import opened Draws
  import opened Motion
  import Trig

  /** A variant's star counts, palette and brightness range. */
  datatype StarConfig = StarConfig(
    mobileCount: nat, desktopCount: nat,
    colors: seq<string>,
    brightnessMin: real, brightnessMax: real)

  /** The `starConfigs` table. */
  function Config(v: Variant): (c: StarConfig)
    ensures c.mobileCount < c.desktopCount
    ensures 0 < |c.colors|
    ensures 0.0 <= c.brightnessMin < c.brightnessMax <= 1.0
  {
    match v
    case Cosmic => StarConfig(80, 150, ["#ffffff", "#3b82f6", "#22d3ee", "#a855f7"], 0.3, 1.0)
    case Philosophical => StarConfig(60, 120, ["#ffffff", "#818cf8", "#a855f7"], 0.4, 0.9)
    case Transcendent => StarConfig(70, 130, ["#ffffff", "#22d3ee", "#0ea5e9"], 0.3, 1.0)
  }

  /** The number of stars: the variant's mobile entry on a mobile device, its
      desktop entry otherwise; a phone never gets more stars than a desktop. */
  function StarCount(v: Variant, isMobile: bool): (n: nat)
    ensures isMobile ==> n == Config(v).mobileCount
    ensures !isMobile ==> n == Config(v).desktopCount
    ensures n <= Config(v).desktopCount
    ensures isMobile ==> n < StarCount(v, false)
  {
    if isMobile then Config(v).mobileCount else Config(v).desktopCount
  }

  datatype Star = Star(x: real, y: real, size: real, brightness: real,
                       twinkleSpeed: real, color: string)

  predicate InRanges(v: Variant, s: Star) {
    && 0.5 <= s.size < 2.5
    && Config(v).brightnessMin <= s.brightness < Config(v).brightnessMax
    && 0.02 <= s.twinkleSpeed < 0.05
    && s.color in Config(v).colors
  }

  /** A fresh star from six draws in call order (x, y, size, brightness,
      twinkle speed, colour index). */
  function CreateStar(v: Variant, s: Surface, rs: seq<real>): (star: Star)
    requires s.Valid() && AreDraws(rs, 6)
    ensures InRanges(v, star)
    ensures 0.0 <= star.x <= s.width && 0.0 <= star.y <= s.height
  {
    var c := Config(v);
    var r0, r1, r2, r3, r4, r5 := rs[0], rs[1], rs[2], rs[3], rs[4], rs[5];
    assert IsDraw(r0) && IsDraw(r1) && IsDraw(r2) && IsDraw(r3) && IsDraw(r4) && IsDraw(r5);
    Star(
      x := Scaled(r0, s.width),
      y := Scaled(r1, s.height),
      size := r2 * 2.0 + 0.5,
      brightness := Uniform(r3, c.brightnessMin, c.brightnessMax),
      twinkleSpeed := 0.02 + r4 * 0.03,
      color := c.colors[Index(r5, |c.colors|)])
  }

  /** `initStars`, run at start and on every resize: exactly `StarCount`
      stars. */
  function InitStars(v: Variant, isMobile: bool, s: Surface, draws: seq<seq<real>>): (stars: seq<Star>)
    requires s.Valid() && AreDrawBatches(draws, StarCount(v, isMobile), 6)
    ensures |stars| == StarCount(v, isMobile)
    ensures forall i :: 0 <= i < |stars| ==> InRanges(v, stars[i])
  {
    seq(|draws|, i requires 0 <= i < |draws| => CreateStar(v, s, draws[i]))
  }

  /** The sine argument `currentTime * star.twinkleSpeed`. */
  function Phase(star: Star, currentTime: real): real {
    currentTime * star.twinkleSpeed
  }

  /** `Math.sin(currentTime * star.twinkleSpeed) * 0.3 + 0.7`: full
      brightness exactly at a sine crest, 40 percent exactly at a trough. */
  function Twinkle(star: Star, currentTime: real, sin: real -> real): (t: real)
    requires Trig.Bounded(sin)
    ensures 0.4 <= t <= 1.0
    ensures t == 1.0 <==> sin(Phase(star, currentTime)) == 1.0
    ensures t == 0.4 <==> sin(Phase(star, currentTime)) == -1.0
  {
    sin(Phase(star, currentTime)) * 0.3 + 0.7
  }

  /** The drawn alpha `brightness * twinkle`: between 40% of the star's
      brightness and all of it, reaching either bound, for a lit star,
      exactly at a crest or a trough of the sine. */
  function StarAlpha(star: Star, currentTime: real, sin: real -> real): (a: real)
    requires Trig.Bounded(sin) && 0.0 <= star.brightness
    ensures 0.4 * star.brightness <= a <= star.brightness
    ensures 0.0 < star.brightness ==>
      (a == star.brightness <==> sin(Phase(star, currentTime)) == 1.0)
    ensures 0.0 < star.brightness ==>
      (a == 0.4 * star.brightness <==> sin(Phase(star, currentTime)) == -1.0)
  {
    var t := Twinkle(star, currentTime, sin);
    TwinkleScale(star.brightness, t, sin(Phase(star, currentTime)));
    star.brightness * t
  }

  /** The brightness `b` scaled by the twinkle `t` of the sine value `s`. */
  lemma TwinkleScale(b: real, t: real, s: real)
    requires 0.0 <= b && -1.0 <= s <= 1.0 && t == s * 0.3 + 0.7
    ensures 0.4 * b <= b * t <= b
    ensures 0.0 < b ==> (b * t == b <==> s == 1.0) && (b * t == 0.4 * b <==> s == -1.0)
  {
    assert b * t - b == b * (t - 1.0);
    assert b * t - 0.4 * b == b * (t - 0.4);
  }

  /** Scaling by a positive brightness keeps the order of two twinkles, and
      the twinkles keep the order of their sine values. */
  lemma ScaleKeepsOrder(b: real, s1: real, s2: real, a1: real, a2: real)
    requires 0.0 < b && a1 == b * (s1 * 0.3 + 0.7) && a2 == b * (s2 * 0.3 + 0.7)
    ensures a1 <= a2 <==> s1 <= s2
  {
    assert a2 - a1 == b * ((s2 - s1) * 0.3);
  }

  /** A lit star is brighter at one moment than at another exactly when the
      sine of its twinkle is higher: the alpha follows the sine and nothing
      else. */
  lemma {:induction false} StarAlphaFollowsSine(star: Star, t1: real, t2: real, sin: real -> real)
    requires Trig.Bounded(sin) && 0.0 < star.brightness
    ensures StarAlpha(star, t1, sin) <= StarAlpha(star, t2, sin)
        <==> sin(Phase(star, t1)) <= sin(Phase(star, t2))
  {
    ScaleKeepsOrder(star.brightness, sin(Phase(star, t1)), sin(Phase(star, t2)),
                    StarAlpha(star, t1, sin), StarAlpha(star, t2, sin));
  }

  /** One frame callback: nothing when the layer is not visible (and no
      further frame is requested); otherwise the alpha of every star. The
      stars are an input only: a frame has no way to change them. */
  function Animate(stars: seq<Star>, currentTime: real, isVisible: bool, sin: real -> real)
    : (alphas: seq<real>)
    requires Trig.Bounded(sin)
    requires forall i :: 0 <= i < |stars| ==> 0.0 <= stars[i].brightness
    ensures !isVisible ==> alphas == []
    ensures isVisible ==> |alphas| == |stars|
    ensures isVisible ==> forall i :: 0 <= i < |stars| ==>
      0.4 * stars[i].brightness <= alphas[i] <= stars[i].brightness
    ensures isVisible ==> forall i :: 0 <= i < |stars| ==> alphas[i] == StarAlpha(stars[i], currentTime, sin)
  {
    if !isVisible then []
    else seq(|stars|, i requires 0 <= i < |stars| => StarAlpha(stars[i], currentTime, sin))
  }
}

=== FILE: trail.dfy ===
/** Bounded FIFO trails: push the newest point, then drop the oldest one if
    the trail has grown past its capacity (`push` then a single `shift`). */
module Trail {

  /** The last `n` elements of `s`, or all of it when it is shorter. */
  function LastN<T>(s: seq<T>, n: nat): (r: seq<T>)
    ensures |r| == if |s| <= n then |s| else n
  {
    if |s| <= n then s else s[|s| - n..]
  }

  function Push<T>(trail: seq<T>, p: T, cap: nat): (r: seq<T>)
    requires 1 <= cap
    ensures 1 <= |r| && r[|r| - 1] == p
    ensures |trail| <= cap ==> |r| <= cap
    ensures |trail| < cap ==> r == trail + [p]
    ensures |trail| >= cap ==> r == trail[1..] + [p]
  {
    var grown := trail + [p];
    if |grown| > cap then grown[1..] else grown
  }

  /** On a trail within its capacity, one push keeps exactly the newest `cap`
      points of the history. */
  lemma PushKeepsNewest<T>(trail: seq<T>, p: T, cap: nat)
    requires 1 <= cap && |trail| <= cap
    ensures Push(trail, p, cap) == LastN(trail + [p], cap)
  {
  }

  /** Pushing each of `ps` in turn. */
  function PushAll<T>(trail: seq<T>, ps: seq<T>, cap: nat): (r: seq<T>)
    requires 1 <= cap
    decreases |ps|
  {
    if |ps| == 0 then trail else PushAll(Push(trail, ps[0], cap), ps[1..], cap)
  }

  /** However many points are pushed, a trail that started within capacity
      holds exactly the newest `cap` points of its whole history. */
  lemma {:induction false} PushAllKeepsNewest<T>(trail: seq<T>, ps: seq<T>, cap: nat)
    requires 1 <= cap && |trail| <= cap
    ensures PushAll(trail, ps, cap) == LastN(trail + ps, cap)
    decreases |ps|
  {
    if |ps| > 0 {
      var t := Push(trail, ps[0], cap);
      PushKeepsNewest(trail, ps[0], cap);
      PushAllKeepsNewest(t, ps[1..], cap);
      var h := trail + ps;
      assert trail + [ps[0]] + ps[1..] == h;
      LastNOfLastN(trail + [ps[0]], ps[1..], cap);
    }
  }

  /** Keeping the newest `n` before appending more, then the newest `n`
      again, is keeping the newest `n` of everything. */
  lemma LastNOfLastN<T>(s: seq<T>, more: seq<T>, n: nat)
    ensures LastN(LastN(s, n) + more, n) == LastN(s + more, n)
  {
    if |s| > n {
      var t := s[|s| - n..] + more;
      var h := s + more;
      assert t == h[|s| - n..];
      assert t[|t| - n..] == h[|h| - n..];
    }
  }

  /** `index / length`: the position of a trail point as a fraction of the
      trail, used to make older points fainter. */
  function Ramp(index: nat, length: nat): (f: real)
    requires index < length
    ensures 0.0 <= f < 1.0
    ensures index == 0 ==> f == 0.0
  {
    index as real / length as real
  }
}

=== FILE: trig.dfy ===
/** `Math.sin` is not modelled. Where the source uses it, the model takes the
    sine as a function parameter and assumes only two of its properties:
    its values lie in [-1, 1] and it has period 2π. The period is taken to
    be exactly twice the double-precision `Math.PI`; a floating-point sine
    repeats only up to rounding, so periodicity is an idealisation. */
module Trig {

  /** `Math.PI`. */
  const Pi: real := 3.141592653589793

  /** `Math.PI * 2`. */
  const TwoPi: real := 2.0 * Pi

  ghost predicate Bounded(sin: real -> real) {
    forall t :: -1.0 <= sin(t) <= 1.0
  }

  ghost predicate Periodic(sin: real -> real) {
    forall t, u :: u == t + TwoPi ==> sin(u) == sin(t)
  }

  /** A value of a bounded sine scaled by `k >= 0` lies within `k` of 0. */
  lemma ScaledSine(s: real, k: real)
    requires -1.0 <= s <= 1.0 && 0.0 <= k
    ensures -k <= s * k <= k
  {
  }
}

=== FILE: working_awakening_section.dfy ===
/** The awakening section's accordion of five stage cards: clicking a card
    expands it and collapses whichever card was open, clicking the open card
    collapses it, so at most one card is ever expanded. */
module WorkingAwakeningSection {

  import opened Options
  import CssColor

  datatype Stage = Stage(id: string, title: string, accent: string)

  /** The `awakeningStages` list, with the fields the accordion uses. */
  function Stages(): seq<Stage> {
    [Stage("recognition", "Recognition", "#64748b"),
     Stage("investigation", "Investigation", "#6b7280"),
     Stage("dissolution", "Dissolution", "#94a3b8"),
     Stage("integration", "Integration", "#71717a"),
     Stage("embodiment", "Embodiment", "#52525b")]
  }

  predicate IsStageId(id: string) {
    exists i :: 0 <= i < |Stages()| && Stages()[i].id == id
  }

  /** Stage ids are distinct, so a card is identified by its id, and every
      accent with the `80` alpha suffix of the card's ring is a
      `#RRGGBBAA` colour. */
  lemma StagesWellFormed()
    ensures forall i, j :: 0 <= i < j < |Stages()| ==> Stages()[i].id != Stages()[j].id
    ensures forall i :: 0 <= i < |Stages()| ==> CssColor.IsHexColor(Stages()[i].accent + "80", 8)
  {
  }

  /** `toggleStage`: the functional update of `expandedStage`. */
  function Toggle(expanded: Option<string>, id: string): (r: Option<string>)
    ensures r == None <==> expanded == Some(id)
    ensures r == Some(id) <==> expanded != Some(id)
  {
    if expanded == Some(id) then None else Some(id)
  }

  /** `isExpanded` of the card with id `id`. */
  predicate IsExpanded(expanded: Option<string>, id: string) {
    expanded == Some(id)
  }


  /** The expanded body of a card: present only while the card is open. */
  function ExpandedContent(expanded: Option<string>, s: Stage): (body: Option<Stage>)
    ensures body.Some? <==> IsExpanded(expanded, s.id)
    ensures body.Some? ==> body.value == s
  {
    if expanded == Some(s.id) then Some(s) else None
  }

  /** At most one card is expanded, and so at most one card's body is
      rendered, in any state. */
  lemma AtMostOneExpanded(expanded: Option<string>)
    ensures forall i, j :: 0 <= i < j < |Stages()| && IsExpanded(expanded, Stages()[i].id) ==>
      !IsExpanded(expanded, Stages()[j].id)
    ensures forall i, j :: 0 <= i < j < |Stages()| && ExpandedContent(expanded, Stages()[i]).Some? ==>
      ExpandedContent(expanded, Stages()[j]).None?
  {
    StagesWellFormed();
  }

  /** Clicking card `i` renders its body exactly when it was closed, and
      leaves every other card's body hidden, whatever was open before. */
  lemma ClickShowsOnlyClicked(expanded: Option<string>, i: nat)
    requires i < |Stages()|
    ensures var next := Toggle(expanded, Stages()[i].id);
      && (ExpandedContent(next, Stages()[i]).Some? <==> ExpandedContent(expanded, Stages()[i]).None?)
      && forall j :: 0 <= j < |Stages()| && j != i ==> ExpandedContent(next, Stages()[j]).None?
  {
    StagesWellFormed();
  }

  /** Clicking the same card twice restores the state exactly when that
      card or no card was open before; if another card was open, it stays
      closed. */
  lemma ToggleTwice(expanded: Option<string>, id: string)
    ensures Toggle(Toggle(expanded, id), id) == expanded <==> expanded == None || expanded == Some(id)
    ensures expanded.Some? && expanded != Some(id) ==> Toggle(Toggle(expanded, id), id) == None
  {
  }

  /** The state after a sequence of clicks, in order. */
  function Clicks(expanded: Option<string>, ids: seq<string>): Option<string>
    decreases |ids|
  {
    if |ids| == 0 then expanded else Toggle(Clicks(expanded, ids[..|ids| - 1]), ids[|ids| - 1])
  }

  /** Clicking only on cards keeps the state either closed or open on a
      card. */
  lemma {:induction false} ClicksStayOnCards(expanded: Option<string>, ids: seq<string>)
    requires expanded == None || IsStageId(expanded.value)
    requires forall k :: 0 <= k < |ids| ==> IsStageId(ids[k])
    ensures var r := Clicks(expanded, ids);
      r == None || IsStageId(r.value)
    decreases |ids|
  {
    if |ids| > 0 {
      var pre := ids[..|ids| - 1];
      assert forall k :: 0 <= k < |pre| ==> pre[k] == ids[k];
      ClicksStayOnCards(expanded, pre);
    }
  }

  /** Starting with every card closed, `n` clicks on the same card leave it
      open exactly when `n` is odd. */
  lemma {:induction false} RepeatedClicks(id: string, n: nat)
    ensures IsExpanded(Clicks(None, seq(n, _ => id)), id) <==> n % 2 == 1
    ensures !IsExpanded(Clicks(None, seq(n, _ => id)), id) ==> Clicks(None, seq(n, _ => id)) == None
  {
    if n > 0 {
      var ids := seq(n, _ => id);
      assert ids[..n - 1] == seq(n - 1, _ => id);
      RepeatedClicks(id, n - 1);
    }
  }
}
